=== FILE: README.md ===
# Slack build notifier — a Dafny model of its classification and message core

This project models the core of a build-notification plugin for a continuous
integration server. The plugin posts a chat message when a build starts and when
it completes. The model covers four things:

- **Result classification.** `GetMessageType` is the first-match decision list.
  It maps the current result, the effective previous result and seven preference
  flags to one of eight message types. The effective previous result comes from
  a backward walk that skips aborted and still-running builds. `StatusWord` is the
  second classifier, which produces "Back to normal", "Still Failing" and so on.
  `BuildColor` gives the colour tag, and `Verb` gives the verb of the completion
  message.
- **Escaping.** `Escape` runs three sequential passes, in this order: `&` to
  `&amp;`, `<` to `&lt;`, `>` to `&gt;`.
- **Change summaries.** The start message reports the unique authors and the size
  of the union of all affected files. The commit list is a set of rendered lines,
  deduplicated by their text. When a build has no changes the list falls back to
  the upstream build, or to "No Changes." when there is none.
- **Message construction and dispatch.** The status message, the start messages
  and the test summary are built here. `started` and `completed` become functions
  that return the (text, colour) pairs handed to the chat sink, in order.

The Java builders append to a `StringBuffer`. Some appends go through the
builder's escaping `append`; others write straight onto the buffer: the " - "
and " " between the project and build names, links, the test summary, the custom
message, and " after " plus the duration in the start builder. A message is modelled as a sequence of `Piece`s, either `Appended`
(escaped) or `Verbatim`. This keeps visible exactly which text is escaped.
Every start-builder message begins with the header `startMessage` writes: the
escaped project name, " - ", the escaped build display name and a blank.

A project's build history is a `seq<Run>`, oldest first. Its last element is the
project's last build. The build being notified is the element at position `pos`.
A `null` result (a build in progress) is `None`.

Three details of the code shape the model:

- The custom message is appended to the buffer directly, without escaping
  (ActiveNotifier.java:400-401 and 570-571).
- When a build has no changes, `getCommitList` calls itself on the upstream build,
  so the fallback follows the whole upstream chain (ActiveNotifier.java:204-214).
- The status-word walk starts from the build before the project's last build
  (not the build being notified) and steps back over aborted builds only
  (ActiveNotifier.java:452-465). The completion walk steps through
  previous completed builds (ActiveNotifier.java:94-98).

## Model

| member | source | states |
|---|---|---|
| Escaping.EscapeIsPerCharacter | src/main/java/jenkins/plugins/slack/ActiveNotifier.java:587-593 | the three sequential `replace` passes equal escaping each character on its own: no pass rewrites an entity an earlier pass inserted |
| Escaping.EscapeIsEscaped | src/main/java/jenkins/plugins/slack/ActiveNotifier.java:587-593 | escaped text has no raw `<` or `>`, and every `&` in it begins `&amp;`, `&lt;` or `&gt;` |
| Escaping.EscapePlain | src/main/java/jenkins/plugins/slack/ActiveNotifier.java:587-593 | text without `&`, `<`, `>` is returned unchanged |
| Escaping.EscapeFixedPoints | src/main/java/jenkins/plugins/slack/ActiveNotifier.java:405-411 | the escaper leaves a string unchanged if and only if it has none of the three characters |
| Escaping.EscapeNotIdempotent | src/main/java/jenkins/plugins/slack/ActiveNotifier.java:405-411 | already-escaped text is escaped again (no double-escape protection), so a second pass changes any text that needed escaping |
| Escaping.EscapeRoundTrip | src/main/java/jenkins/plugins/slack/ActiveNotifier.java:587-593 | decoding the three entities recovers the original text, so escaping loses nothing |
| Escaping.EscapeAppend | src/main/java/jenkins/plugins/slack/ActiveNotifier.java:355-363 | escaping fragment by fragment, as each `append` does, equals escaping their concatenation |
| Builds.Nearest | src/main/java/jenkins/plugins/slack/ActiveNotifier.java:462-465 | the backward walk stops at the newest older build it does not skip, every build between was skipped, and no result means every older build was skipped |
| Builds.WalkPreviousResult | src/main/java/jenkins/plugins/slack/ActiveNotifier.java:94-98 | the do-while walk over previous completed builds yields the result of the nearest older completed non-aborted build, or SUCCESS when there is none; never ABORTED |
| Builds.AbortedBuildIsTransparent | src/main/java/jenkins/plugins/slack/ActiveNotifier.java:94-98 | inserting an aborted build before the last build does not change the effective previous result |
| Builds.SuccessAbortedScenario | src/main/java/jenkins/plugins/slack/ActiveNotifier.java:94-98 | SUCCESS, then ABORTED, then the current build: the previous result used is SUCCESS |
| Classifier.GetMessageType | src/main/java/jenkins/plugins/slack/ActiveNotifier.java:115-148 | a message is only ever produced for the outcome it announces, and only when that message's preference flag is set |
| Classifier.FailureAfterFailure | src/main/java/jenkins/plugins/slack/ActiveNotifier.java:120-127 | FAILURE after FAILURE is never FAILURE; it is REPEATED_FAILURE with notifyRepeatedFailure and NO_MESSAGE without |
| Classifier.FirstFailure | src/main/java/jenkins/plugins/slack/ActiveNotifier.java:121-127 | a first failure is FAILURE when notifyFailure is set, and otherwise falls to REPEATED_FAILURE when that flag is set |
| Classifier.BackToNormalExactly | src/main/java/jenkins/plugins/slack/ActiveNotifier.java:133-141 | BACK_TO_NORMAL if and only if SUCCESS after FAILURE or UNSTABLE with notifyBackToNormal; in that case never SUCCESS |
| Classifier.AbortedWins | src/main/java/jenkins/plugins/slack/ActiveNotifier.java:116-118 | ABORTED with notifyAborted is ABORTED whatever the other flags and the previous result |
| Classifier.NoMessageExactly | src/main/java/jenkins/plugins/slack/ActiveNotifier.java:115-147 | NO_MESSAGE exactly when no rule applies for the build's result |
| Classifier.MoreFlagsNeverSilence | src/main/java/jenkins/plugins/slack/ActiveNotifier.java:115-148 | enabling more preference flags never turns a notified build into NO_MESSAGE |
| Classifier.VerbMatchesOutcome | src/main/java/jenkins/plugins/slack/ActiveNotifier.java:299-320 | whenever a message is sent, its verb is the verb of the build's own outcome, never the fallback "something weird happened" |
| Classifier.BuildColor | src/main/java/jenkins/plugins/slack/ActiveNotifier.java:234-243 | the colour tag is one of "good", "danger", "warning"; it is "good" if and only if the result is SUCCESS and "danger" if and only if it is FAILURE |
| Classifier.ColorAgreesWithMessageType | src/main/java/jenkins/plugins/slack/ActiveNotifier.java:234-243 | passing message types are published "good", failing ones "danger", the others "warning" |
| Classifier.BackToNormalWord | src/main/java/jenkins/plugins/slack/ActiveNotifier.java:446-485 | the status word is "Back to normal" if and only if the build is finished and successful, the nearest non-aborted build before the project's last build failed or was unstable, and an older build succeeded |
| Classifier.StillFailingWord | src/main/java/jenkins/plugins/slack/ActiveNotifier.java:486-488 | a finished FAILURE, when the nearest non-aborted build before the project's last build is a FAILURE, reads "Still Failing" |
| Classifier.FirstSuccessIsNotBackToNormal | src/main/java/jenkins/plugins/slack/ActiveNotifier.java:477-490 | after a single failed build, the first success is classified BACK_TO_NORMAL, but its status word is "Success" |
| Changes.Summarize | src/main/java/jenkins/plugins/slack/ActiveNotifier.java:161-188 | no summary if and only if the change set is not computed or empty; otherwise the authors are exactly the entries' authors and the file count is the size of the union of affected files, at most the sum of per-entry counts |
| Changes.FileCountBounds | src/main/java/jenkins/plugins/slack/ActiveNotifier.java:166-188 | the union's size is at most the sum of the per-entry counts and at least each entry's count |
| Changes.AllFilesMembers | src/main/java/jenkins/plugins/slack/ActiveNotifier.java:168-174 | a file is counted if and only if some entry affects it |
| Changes.AuthorsMembers | src/main/java/jenkins/plugins/slack/ActiveNotifier.java:179-182 | a name is among the authors if and only if some entry has that author |
| Changes.SharedFileCountedOnce | src/main/java/jenkins/plugins/slack/ActiveNotifier.java:168-187 | two entries touching the same file report one changed file, not two |
| Changes.ListCommits | src/main/java/jenkins/plugins/slack/ActiveNotifier.java:196-227 | an empty change set without an upstream cause gives "No Changes."; otherwise the listed lines are exactly the distinct rendered entries, between one and the number of entries |
| Changes.CommitLinesMembers | src/main/java/jenkins/plugins/slack/ActiveNotifier.java:216-227 | a line is listed if and only if some entry renders to it |
| Changes.CommitLinesCard | src/main/java/jenkins/plugins/slack/ActiveNotifier.java:216-227 | there are never more lines than entries, and at least one for a non-empty change set |
| Changes.SameAuthorCollapses | src/main/java/jenkins/plugins/slack/ActiveNotifier.java:216-227 | two commits by one author collapse into one line when only authors are shown |
| Changes.ListingSource | src/main/java/jenkins/plugins/slack/ActiveNotifier.java:204-215 | the lines come from a build on the upstream fall-back chain, and "No Changes." appears exactly when no build on that chain has entries |
| Messages.CommitListText | src/main/java/jenkins/plugins/slack/ActiveNotifier.java:204-231 | the commit-list message is "No Changes." without a listing; with one it is the header of the listing's build (the upstream build when the fallback was taken) followed by "Changes:\n- " and the escaped lines joined by "\n- "; it never contains a raw `<` or `>` |
| Text.IntToDecimal | src/main/java/jenkins/plugins/slack/ActiveNotifier.java:187 | numbers are written as an optional minus sign and canonical decimal digits (no leading zero) that denote the number |
| Messages.MarkupOnlyFromVerbatim | src/main/java/jenkins/plugins/slack/ActiveNotifier.java:346-363 | every `<` or `>` of a built message comes from a verbatim append; escaped appends contribute none |
| Messages.PassedCount | src/main/java/jenkins/plugins/slack/ActiveNotifier.java:373-388 | the passed count equals total minus failed minus skipped modulo 2^32; for consistent counts it is exact, non-negative, and the three numbers add up to the total |
| Messages.TestSummaryIsPlain | src/main/java/jenkins/plugins/slack/ActiveNotifier.java:543-558 | the test summary is appended unescaped but has no `&`, `<` or `>`, so escaping would not change it |
| Messages.TestSummaryConsistent | src/main/java/jenkins/plugins/slack/ActiveNotifier.java:543-558 | when failed plus skipped is at most the total, the test summary is "\nTest Status:\n\tPassed: " and the total minus failed minus skipped, then ", Failed: " and the failed count, then ", Skipped: " and the skipped count, each count in canonical decimal; the status builder writes the identical summary (ActiveNotifier.java:373-388) |
| Messages.CausePiecesJoin | src/main/java/jenkins/plugins/slack/ActiveNotifier.java:273-288 | the "triggered by" loop writes the escaped ", "-join of the non-empty cause strings |
| Messages.StatusMessage | src/main/java/jenkins/plugins/slack/ActiveNotifier.java:259-332 | building the status message fails if and only if a pull-request id is present without a commit author |
| Messages.StatusMessageShape | src/main/java/jenkins/plugins/slack/ActiveNotifier.java:264-331 | a built status message starts with "Build " and contains the build link, " of " with the escaped branch or project name, and the escaped verb and duration; without test summary and custom message it ends with that verb and duration |
| Messages.StatusMessagePullRequest | src/main/java/jenkins/plugins/slack/ActiveNotifier.java:291-296 | with a pull id the message contains " in PR ", the link to the pull request labelled "#" and the id, " by " and the escaped commit author |
| Messages.StatusMessageCauses | src/main/java/jenkins/plugins/slack/ActiveNotifier.java:273-288 | without a source branch and with causes, the message contains " triggered by " and the escaped ", "-join of the non-empty causes |
| Messages.BranchReplacesProjectName | src/main/java/jenkins/plugins/slack/ActiveNotifier.java:266-289 | with a source-branch variable the branch follows " of ", and the project name and causes do not affect the message |
| Messages.StatusMessageLinks | src/main/java/jenkins/plugins/slack/ActiveNotifier.java:259-332 | names, branches, causes, authors and durations cannot inject markup: the message holds exactly the build link, plus the pull-request link when there is one |
| Messages.DurationAsWritten | src/main/java/jenkins/plugins/slack/ActiveNotifier.java:531-541 | when the message so far does not contain "Back to normal", the build's own duration; when it does, the span since the newest earlier success, and a failure if and only if there is no earlier success |
| Messages.Duration | src/main/java/jenkins/plugins/slack/ActiveNotifier.java:531-541 | when the status word is "Back to normal" an earlier successful build exists and the result is the span since it; otherwise the build's own duration |
| Messages.BackToNormalSpan | src/main/java/jenkins/plugins/slack/ActiveNotifier.java:575-585 | the span runs from the end of the newest earlier successful build to the end of the current build, each end being start time plus duration |
| Messages.StatusWordMentioned | src/main/java/jenkins/plugins/slack/ActiveNotifier.java:531-541 | when the status word is "Back to normal", the message so far contains it, so the written check and the status word agree in that case |
| Messages.StartedMessageAsWritten | src/main/java/jenkins/plugins/slack/ActiveNotifier.java:245-257 | `getStartedMessage` as written fails if and only if the message so far contains "Back to normal" and no earlier build succeeded; without that text it equals the corrected message |
| Messages.ChangesMessage | src/main/java/jenkins/plugins/slack/ActiveNotifier.java:183-193 | the change message begins with the header, then "Started by changes from ", the escaped author list and the number of changed files in parentheses, then the "Open" link |
| Messages.BackToNormalInNameMisfires | src/main/java/jenkins/plugins/slack/ActiveNotifier.java:531-541 | a running build of a project named "Back to normal" with no earlier success makes the written check fail, while the status-word check uses the build's duration |
| Messages.BackToNormalInNameUsesSpan | src/main/java/jenkins/plugins/slack/ActiveNotifier.java:531-541 | a running build of a project named "Back to normal" with an earlier success gets the back-to-normal span from the written check, though its status word is "Starting..." |
| Notifier.StartColor | src/main/java/jenkins/plugins/slack/ActiveNotifier.java:78-86 | the start colour is "good" if and only if there is no previous completed build or it succeeded, and "danger" if and only if it failed |
| Messages.HeaderRender | src/main/java/jenkins/plugins/slack/ActiveNotifier.java:517-523 | the header's four appends render as the escaped project name, " - ", the escaped build display name and a blank |
| Messages.CauseStartMessage | src/main/java/jenkins/plugins/slack/ActiveNotifier.java:62-64 | the cause start message is exactly the header, the escaped short description of the cause and the "Open" link |
| Messages.StartedMessage | src/main/java/jenkins/plugins/slack/ActiveNotifier.java:245-257 | the started message begins with the header, the escaped status word, " after ", the duration chosen by the status word and the "Open" link |
| Notifier.StartText | src/main/java/jenkins/plugins/slack/ActiveNotifier.java:57-75 | every start text begins with the header of the build and contains its "Open" link; with a non-SCM cause it contains the cause's escaped description; otherwise with changes it contains "Started by changes from " with the escaped authors and the file count; otherwise it contains the status word, " after " and the duration |
| Notifier.Started | src/main/java/jenkins/plugins/slack/ActiveNotifier.java:53-86 | one start notification per build, carrying the start text; "good" if and only if there is no previous completed build or it succeeded, "danger" if and only if it failed |
| Notifier.StartTextAsWritten | src/main/java/jenkins/plugins/slack/ActiveNotifier.java:53-76 | the start text as written fails if and only if the build has no non-SCM cause, no changes, the message so far contains "Back to normal" and no earlier build succeeded |
| Notifier.StartedAsWritten | src/main/java/jenkins/plugins/slack/ActiveNotifier.java:53-86 | `started` as written publishes nothing exactly when the start text fails; otherwise it publishes in the colour `Started` gives, and without "Back to normal" in the text it equals `Started` |
| Notifier.CauseStartIgnoresChanges | src/main/java/jenkins/plugins/slack/ActiveNotifier.java:57-68 | with a non-SCM cause, the start text contains the cause's escaped description and does not depend on the change set |
| Notifier.StartMessageLinks | src/main/java/jenkins/plugins/slack/ActiveNotifier.java:53-76 | names, descriptions, authors and status words cannot inject markup into a start message: it holds exactly its "Open" link |
| Notifier.Completed | src/main/java/jenkins/plugins/slack/ActiveNotifier.java:91-113 | NO_MESSAGE publishes nothing; otherwise the status message comes first, then the commit list when commit info is shown, all in the build's colour; it fails only for a pull request without a commit author |
| Notifier.RepeatedFailureScenario | src/main/java/jenkins/plugins/slack/ActiveNotifier.java:121-127 | FAILURE after FAILURE with both failure flags set is sent as REPEATED_FAILURE, "failed", "danger" |

## Left out

- Network delivery: `getSlack` and `SlackService.publish` are the chat sink. The model returns the list of (text, colour) pairs in publishing order.
- Host lookups: the upstream project and build are found with `Hudson.getItemByFullName` and `getBuildByNumber`. The model takes the resolved upstream build as `Run.upstream`, so a missing upstream project or build (a null dereference in the code) is not modelled.
- Custom message: the environment expansion of the template, and the logging of its failures, belong to the host. The model takes the expanded text as `Config.customMessage`.
- Time formatting: `getDurationString` and `Util.getTimeSpanString` are host formatting. The model takes them as `Run.durationText` and a `timeSpan` function parameter.
- Messages.BackToNormalSpan: the span is computed with unbounded integers, not 64-bit `long` arithmetic, because millisecond timestamps are far below 2^63.
- Host build links: the host's build list is not part of this model; the history sequence stands in for it. The previous build (`getPreviousBuild`) of position i is position i-1. `getPreviousCompletedBuild` is `Builds.PreviousCompleted`, the newest older build that is not running. `getPreviousSuccessfulBuild` is `Builds.PreviousSuccessful`, the newest older build that succeeded.
- Cause discovery: the model takes the cause action as a description plus an "has SCM-poll cause" flag, and the causes as their string forms. A null cause string is represented as the empty string, which the loop skips too.
- `CommitInfoChoice` is not part of this model. It is represented by its two flags, show title and show author; "show anything" is their disjunction.
- Affected files are compared by path. The Java `HashSet` uses the SCM implementation's `equals`.
- `HashSet` iteration order is unspecified. Rendering takes the order as an input (`authorOrder`, `commitOrder`) that must list each set element exactly once.
- Logger calls and the empty `deleted` and `finalized` hooks have no observable effect.
- Build variables with null values are not modelled: a present key always has a string value. A missing pull-request link prints "null", as `StringBuffer.append` does.
- Messages.StatusMessage: its ensures covers only when construction fails. StatusMessageShape states which parts the text contains and how it begins and ends, but not the order of the parts in the middle. StatusMessagePullRequest and StatusMessageCauses state that the pull-request text and the cause list occur in it; BranchReplacesProjectName and StatusMessageLinks state what does not occur. Where the pull-request text and the cause list sit relative to the other parts is not stated.
- Notifier.Started: uses the corrected `Duration` of the Findings row. The code as written is Notifier.StartedAsWritten, which fails where the written duration check fails.
- Messages.ChangesMessage: states the header, the change summary and the link it begins with, not the custom message after them.
- Messages.StartedMessage: states the header, status word, duration and link it begins with, not the test summary and custom message after them.

## Findings

| source | as written | input that shows it | evidently intended | confidence | as-written member | corrected member |
|---|---|---|---|---|---|---|
| src/main/java/jenkins/plugins/slack/ActiveNotifier.java:531-541 | `appendDuration` takes the back-to-normal path when the whole message so far contains "Back to normal", including the project and build names. That path then reads the previous successful build without a null check. | A running build of a project named "Back to normal" that has never succeeded. Its status word is "Starting...", but the check matches the name, and `createBackToNormalDurationString` dereferences a null previous successful build. With an earlier success, the same build reports the span since that success instead of its own duration. | Use the back-to-normal span only when the status word is "Back to normal". That word already implies an earlier successful build. | not executed; high | Messages.DurationAsWritten, Messages.StartedMessageAsWritten, Notifier.StartedAsWritten, Messages.BackToNormalInNameMisfires, Messages.BackToNormalInNameUsesSpan | Messages.Duration |

=== FILE: basics.dfy ===
/** Small shared vocabulary: optional values, results with an error value, and
    Java's 32-bit `int` arithmetic. */
module Basics {

  /** A value that may be absent; stands in for a Java reference that may be null. */
  datatype Option<T> = None | Some(value: T)

  /** Either a value or the reason it could not be produced. */
  datatype Result<T, E> = Ok(value: T) | Err(error: E)

  const TwoTo31: int := 0x8000_0000
  const TwoTo32: int := 0x1_0000_0000

  /** True if `x` fits in a Java `int`. */
  predicate IsInt32(x: int) {
    -TwoTo31 <= x < TwoTo31
  }

  /** The values of a Java `int`. */
  type Int32 = x: int | IsInt32(x)

  /** The value a Java `int` holds after an operation whose exact result is `x`
      (two's-complement wrap-around). */
  function Wrap32(x: int): (r: Int32)
    ensures (x - r) % TwoTo32 == 0
    ensures IsInt32(x) ==> r == x
  {
    (x + TwoTo31) % TwoTo32 - TwoTo31
  }
}

=== FILE: builds.dfy ===
/** The build snapshot the notifier reads: results, change entries, test counts,
    build variables, and the project's build history with the backward walks
    over it. Everything here is read-only input owned by the host job system. */
module Builds {
  import opened Basics

  /** Terminal outcome of a build (Jenkins `Result`). A build still in progress has
      no outcome yet, modelled as `Option<Outcome>.None` (a null `Result`). */
  datatype Outcome = Success | Unstable | Failure | NotBuilt | Aborted

  /** One source-control change-log entry. `files` are the affected paths; two
      affected files are taken to be equal when their paths are. */
  datatype Entry = Entry(author: string, msg: string, files: set<string>)

  /** Counts reported by the build's test-result action, as Java `int`s. */
  datatype TestCounts = TestCounts(total: Int32, failed: Int32, skipped: Int32)

  /** The build's cause action: its short description and whether one of its
      causes is an SCM-poll trigger. */
  datatype CauseAction = CauseAction(shortDescription: string, hasScmCause: bool)

  /** One build of a project. `durationText` is the host's rendering of the
      build's own duration; `causes` are the string forms of the build's causes;
      `upstream` is the build an upstream cause points at, already resolved by
      the host (absent when there is no upstream cause). */
  datatype Run = Run(
    projectName: string,
    displayName: string,
    id: string,
    url: string,
    result: Option<Outcome>,
    building: bool,
    startMillis: int,
    durationMillis: int,
    durationText: string,
    variables: map<string, string>,
    causes: seq<string>,
    causeAction: Option<CauseAction>,
    tests: Option<TestCounts>,
    changeSetComputed: bool,
    changes: seq<Entry>,
    upstream: Option<Run>)

  /** Which parts of a commit the commit list shows. */
  datatype CommitInfo = CommitInfo(showTitle: bool, showAuthor: bool)
  {
    predicate ShowAnything() {
      showTitle || showAuthor
    }
  }

  /** The seven suppression flags of the notifier's configuration. */
  datatype Preferences = Preferences(
    notifyAborted: bool,
    notifyFailure: bool,
    notifyRepeatedFailure: bool,
    notifyNotBuilt: bool,
    notifyBackToNormal: bool,
    notifySuccess: bool,
    notifyUnstable: bool)

  /** The notifier's configuration, read once per notification. `customMessage`
      is the custom template as the host's environment expansion returns it. */
  datatype Config = Config(
    prefs: Preferences,
    commitInfo: CommitInfo,
    includeTestSummary: bool,
    includeCustomMessage: bool,
    customMessage: string,
    buildServerUrl: string)

  predicate IsAborted(b: Run) {
    b.result == Some(Aborted)
  }

  predicate IsSuccess(b: Run) {
    b.result == Some(Success)
  }

  /** Builds the completion walk passes over: those still running (they are not
      "completed") and those that were aborted. */
  predicate SkippedByCompletedWalk(b: Run) {
    b.building || IsAborted(b)
  }

  /** A project's build history is a sequence, oldest first; its last element is
      the project's last build. `Nearest(h, i, skip)` is the index of the newest
      build older than position `i` that `skip` does not pass over, if any. */
  function Nearest(h: seq<Run>, i: nat, skip: Run -> bool): (r: Option<nat>)
    requires i <= |h|
    ensures r.Some? ==> r.value < i && !skip(h[r.value])
    ensures r.Some? ==> forall k :: r.value < k < i ==> skip(h[k])
    ensures r.None? ==> forall k :: 0 <= k < i ==> skip(h[k])
    decreases i
  {
    if i == 0 then None
    else if !skip(h[i - 1]) then Some(i - 1)
    else Nearest(h, i - 1, skip)
  }

  /** `getPreviousCompletedBuild` of the build at position `i`: the newest older
      build that is no longer running. */
  function PreviousCompleted(h: seq<Run>, i: nat): Option<nat>
    requires i <= |h|
  {
    Nearest(h, i, (b: Run) => b.building)
  }

  /** `getPreviousSuccessfulBuild` of the build at position `i`: the newest older
      build whose result is SUCCESS. */
  function PreviousSuccessful(h: seq<Run>, i: nat): Option<nat>
    requires i <= |h|
  {
    Nearest(h, i, (b: Run) => !IsSuccess(b))
  }

  /** Reference definition of the previous build used for classification: the
      newest completed, non-aborted build older than the project's last build. */
  function PreviousNonAborted(h: seq<Run>): Option<nat>
    requires |h| > 0
  {
    Nearest(h, |h| - 1, SkippedByCompletedWalk)
  }

  /** The effective previous result of the completion handler: the result of the
      nearest older completed non-aborted build, or SUCCESS when there is none. */
  function EffectivePrevious(h: seq<Run>): Option<Outcome>
    requires |h| > 0
  {
    match PreviousNonAborted(h)
    case None => Some(Success)
    case Some(j) => h[j].result
  }

  /** The walk of the completion handler as written: step to the previous
      completed build at least once, and keep stepping while it was aborted.
      It finds exactly the build `PreviousNonAborted` describes, so the effective
      previous result is never ABORTED. */
  method WalkPreviousResult(h: seq<Run>) returns (prev: Option<Outcome>)
    requires |h| > 0
    ensures prev != Some(Aborted)
    ensures prev == EffectivePrevious(h)
  {
    var j := PreviousCompleted(h, |h| - 1);
    while j.Some? && h[j.value].result == Some(Aborted)
      invariant j.Some? ==> j.value < |h| - 1 && !h[j.value].building
      invariant forall k :: (if j.Some? then j.value + 1 else 0) <= k < |h| - 1 ==> SkippedByCompletedWalk(h[k])
      decreases if j.Some? then j.value + 1 else 0
    {
      j := PreviousCompleted(h, j.value);
    }
    assert j == PreviousNonAborted(h) by {
      NearestUnique(h, |h| - 1, SkippedByCompletedWalk, j);
    }
    if j.None? {
      prev := Some(Success);
    } else {
      prev := h[j.value].result;
    }
  }

  /** `Nearest` is the only index with its defining property. */
  lemma NearestUnique(h: seq<Run>, i: nat, skip: Run -> bool, j: Option<nat>)
    requires i <= |h|
    requires j.Some? ==> j.value < i && !skip(h[j.value]) && forall k :: j.value < k < i ==> skip(h[k])
    requires j.None? ==> forall k :: 0 <= k < i ==> skip(h[k])
    ensures j == Nearest(h, i, skip)
  {
  }

  /** `Nearest` only looks at the builds below position `i`. */
  lemma {:induction false} NearestLooksBelow(h: seq<Run>, h': seq<Run>, i: nat, skip: Run -> bool)
    requires i <= |h| && i <= |h'|
    requires forall k :: 0 <= k < i ==> h[k] == h'[k]
    ensures Nearest(h, i, skip) == Nearest(h', i, skip)
    decreases i
  {
    if i > 0 {
      NearestLooksBelow(h, h', i - 1, skip);
    }
  }

  /** An aborted build finishing just before the last one does not change the
      effective previous result: aborted builds cannot hide a failure from a
      later success. */
  lemma AbortedBuildIsTransparent(h: seq<Run>, x: Run)
    requires |h| > 0
    requires IsAborted(x)
    ensures EffectivePrevious(h[..|h| - 1] + [x, h[|h| - 1]]) == EffectivePrevious(h)
  {
    var h' := h[..|h| - 1] + [x, h[|h| - 1]];
    assert h'[|h| - 1] == x;
    assert Nearest(h', |h|, SkippedByCompletedWalk) == Nearest(h', |h| - 1, SkippedByCompletedWalk);
    NearestLooksBelow(h, h', |h| - 1, SkippedByCompletedWalk);
  }

  /** A success, then an aborted build, then the current one: the previous result
      used for the current build is SUCCESS, not ABORTED. */
  lemma SuccessAbortedScenario(s: Run, a: Run, current: Run)
    requires IsSuccess(s) && !s.building
    requires IsAborted(a) && !a.building
    ensures EffectivePrevious([s, a, current]) == Some(Success)
  {
    var h := [s, a, current];
    assert !SkippedByCompletedWalk(h[0]) && SkippedByCompletedWalk(h[1]);
  }
}

=== FILE: changes.dfy ===
/** The change summarizer: the author/file-count summary of a start message and
    the commit list sent after a completion message. Java `HashSet`s become
    Dafny sets; the order in which the host iterates them is left open. */
module Changes {
  import opened Basics
  import opened Builds

  /** Union of the affected-file sets of all entries. */
  function AllFiles(entries: seq<Entry>): set<string>
  {
    if |entries| == 0 then {} else entries[0].files + AllFiles(entries[1..])
  }

  /** Sum of the per-entry affected-file counts. */
  function SumOfFileCounts(entries: seq<Entry>): nat
  {
    if |entries| == 0 then 0 else |entries[0].files| + SumOfFileCounts(entries[1..])
  }

  /** Display names of the entries' authors. */
  function Authors(entries: seq<Entry>): set<string>
  {
    if |entries| == 0 then {} else {entries[0].author} + Authors(entries[1..])
  }

  lemma {:induction false} AllFilesMembers(entries: seq<Entry>)
    ensures forall f :: f in AllFiles(entries) <==> exists i :: 0 <= i < |entries| && f in entries[i].files
  {
    if |entries| > 0 {
      AllFilesMembers(entries[1..]);
      forall f | f in AllFiles(entries[1..])
        ensures exists i :: 0 <= i < |entries| && f in entries[i].files
      {
        var i :| 0 <= i < |entries[1..]| && f in entries[1..][i].files;
        assert f in entries[i + 1].files;
      }
      forall f, i | 0 <= i < |entries| && f in entries[i].files
        ensures f in AllFiles(entries)
      {
        if i > 0 {
          assert entries[1..][i - 1] == entries[i];
        }
      }
    }
  }

  lemma {:induction false} AuthorsMembers(entries: seq<Entry>)
    ensures forall a :: a in Authors(entries) <==> exists i :: 0 <= i < |entries| && entries[i].author == a
  {
    if |entries| > 0 {
      AuthorsMembers(entries[1..]);
      forall a | a in Authors(entries[1..])
        ensures exists i :: 0 <= i < |entries| && entries[i].author == a
      {
        var i :| 0 <= i < |entries[1..]| && entries[1..][i].author == a;
        assert entries[i + 1].author == a;
      }
      forall i | 0 <= i < |entries|
        ensures entries[i].author in Authors(entries)
      {
        if i > 0 {
          assert entries[1..][i - 1] == entries[i];
        }
      }
    }
  }

  /** Files shared by several entries are counted once: the number of changed
      files is at most the sum of the per-entry counts and at least any single
      entry's count. */
  lemma {:induction false} FileCountBounds(entries: seq<Entry>)
    ensures |AllFiles(entries)| <= SumOfFileCounts(entries)
    ensures forall i :: 0 <= i < |entries| ==> |entries[i].files| <= |AllFiles(entries)|
  {
    if |entries| > 0 {
      FileCountBounds(entries[1..]);
      var head, rest := entries[0].files, AllFiles(entries[1..]);
      assert |head + rest| + |head * rest| == |head| + |rest|;
      forall i | 0 <= i < |entries|
        ensures |entries[i].files| <= |AllFiles(entries)|
      {
        if i == 0 {
          SubsetCard(head, head + rest);
        } else {
          assert entries[1..][i - 1] == entries[i];
          SubsetCard(rest, head + rest);
        }
      }
    }
  }

  lemma SubsetCard(a: set<string>, b: set<string>)
    requires a <= b
    ensures |a| <= |b|
  {
    assert b == a + (b - a);
  }

  /** Two entries touching the same single file report one changed file, not two. */
  lemma SharedFileCountedOnce(a: Entry, b: Entry, f: string)
    requires a.files == {f} && b.files == {f}
    ensures |AllFiles([a, b])| == 1
    ensures SumOfFileCounts([a, b]) == 2
  {
    assert [a, b][1..] == [b];
    assert [b][1..] == [];
    assert AllFiles([b]) == {f} + AllFiles([]);
    assert AllFiles([a, b]) == {f} + AllFiles([b]);
    assert SumOfFileCounts([b]) == 1 + SumOfFileCounts([]);
    assert SumOfFileCounts([a, b]) == 1 + SumOfFileCounts([b]);
  }

  /** What the start-message change summary reports: the set of author names and
      the number of distinct changed files. */
  datatype ChangeSummary = ChangeSummary(authors: set<string>, fileCount: nat)

  /** `getChanges` before rendering: nothing when the change set is not computed
      or has no entries; otherwise the unique authors and the size of the union of
      all affected files. */
  function Summarize(b: Run): (r: Option<ChangeSummary>)
    ensures r.None? <==> !b.changeSetComputed || |b.changes| == 0
    ensures r.Some? ==> r.value.fileCount == |AllFiles(b.changes)|
    ensures r.Some? ==> r.value.fileCount <= SumOfFileCounts(b.changes)
    ensures r.Some? ==> forall a :: a in r.value.authors <==> exists i :: 0 <= i < |b.changes| && b.changes[i].author == a
    ensures r.Some? ==> 1 <= |r.value.authors| <= |b.changes|
  {
    if !b.changeSetComputed || |b.changes| == 0 then None
    else
      FileCountBounds(b.changes);
      AuthorsMembers(b.changes);
      AuthorsCard(b.changes);
      Some(ChangeSummary(Authors(b.changes), |AllFiles(b.changes)|))
  }

  lemma {:induction false} AuthorsCard(entries: seq<Entry>)
    ensures |Authors(entries)| <= |entries|
    ensures |entries| > 0 ==> |Authors(entries)| >= 1
  {
    if |entries| > 0 {
      AuthorsCard(entries[1..]);
      var rest := Authors(entries[1..]);
      assert |{entries[0].author} + rest| + |{entries[0].author} * rest| == 1 + |rest|;
      SubsetCard({entries[0].author}, {entries[0].author} + rest);
    }
  }

  /** One line of the commit list: the commit title and/or " [author]". */
  function CommitLine(e: Entry, c: CommitInfo): string
  {
    (if c.showTitle then e.msg else "") + (if c.showAuthor then " [" + e.author + "]" else "")
  }

  /** The rendered lines of a change set, as a set of strings: entries that render
      alike collapse into one line. */
  function CommitLines(entries: seq<Entry>, c: CommitInfo): set<string>
  {
    if |entries| == 0 then {} else {CommitLine(entries[0], c)} + CommitLines(entries[1..], c)
  }

  lemma {:induction false} CommitLinesMembers(entries: seq<Entry>, c: CommitInfo)
    ensures forall l :: l in CommitLines(entries, c) <==> exists i :: 0 <= i < |entries| && CommitLine(entries[i], c) == l
  {
    if |entries| > 0 {
      CommitLinesMembers(entries[1..], c);
      forall l | l in CommitLines(entries[1..], c)
        ensures exists i :: 0 <= i < |entries| && CommitLine(entries[i], c) == l
      {
        var i :| 0 <= i < |entries[1..]| && CommitLine(entries[1..][i], c) == l;
        assert CommitLine(entries[i + 1], c) == l;
      }
      forall i | 0 <= i < |entries|
        ensures CommitLine(entries[i], c) in CommitLines(entries, c)
      {
        if i > 0 {
          assert entries[1..][i - 1] == entries[i];
        }
      }
    }
  }

  lemma {:induction false} CommitLinesCard(entries: seq<Entry>, c: CommitInfo)
    ensures |CommitLines(entries, c)| <= |entries|
    ensures |entries| > 0 ==> |CommitLines(entries, c)| >= 1
  {
    if |entries| > 0 {
      CommitLinesCard(entries[1..], c);
      var line, rest := CommitLine(entries[0], c), CommitLines(entries[1..], c);
      assert |{line} + rest| + |{line} * rest| == 1 + |rest|;
      SubsetCard({line}, {line} + rest);
    }
  }

  /** Two commits by the same author collapse into one line when only authors are
      shown: the list is deduplicated by rendered text, not by commit. */
  lemma SameAuthorCollapses(a: Entry, b: Entry)
    requires a.author == b.author
    ensures CommitLines([a, b], CommitInfo(false, true)) == {" [" + a.author + "]"}
  {
    var c := CommitInfo(false, true);
    assert [a, b][1..] == [b];
    assert [b][1..] == [];
    assert CommitLine(a, c) == CommitLine(b, c) == " [" + a.author + "]";
    assert CommitLines([b], c) == {CommitLine(b, c)} + CommitLines([], c);
    assert CommitLines([a, b], c) == {CommitLine(a, c)} + CommitLines([b], c);
  }

  /** The commit list before rendering: "No Changes." or the lines of the build
      whose change set is used, which supplies the message header. */
  datatype CommitListing = NoChanges | Listing(source: Run, lines: set<string>)

  /** `getCommitList` before rendering. A build without entries defers to the
      build its upstream cause names, recursively; without an upstream cause the
      answer is "No Changes.". */
  function ListCommits(b: Run, c: CommitInfo): (r: CommitListing)
    ensures r.Listing? ==> |r.source.changes| > 0
    ensures r.Listing? ==> forall l :: l in r.lines <==> exists i :: 0 <= i < |r.source.changes| && CommitLine(r.source.changes[i], c) == l
    ensures r.Listing? ==> 1 <= |r.lines| <= |r.source.changes|
    ensures |b.changes| > 0 ==> r == Listing(b, CommitLines(b.changes, c))
    ensures |b.changes| == 0 && b.upstream.None? ==> r == NoChanges
    decreases b
  {
    if |b.changes| == 0 then
      match b.upstream
      case None => NoChanges
      case Some(u) => ListCommits(u, c)
    else
      CommitLinesMembers(b.changes, c);
      CommitLinesCard(b.changes, c);
      Listing(b, CommitLines(b.changes, c))
  }

  /** The builds whose change sets the commit list may fall back to: the build
      itself and, while the change set is empty, the upstream chain. */
  predicate FallsBackTo(b: Run, s: Run)
    decreases b
  {
    s == b || (|b.changes| == 0 && b.upstream.Some? && FallsBackTo(b.upstream.value, s))
  }

  /** The listed lines always come from the first build with changes along the
      upstream chain, and there is no listing only when the chain ends without one. */
  lemma {:induction false} ListingSource(b: Run, c: CommitInfo)
    ensures ListCommits(b, c).Listing? ==> FallsBackTo(b, ListCommits(b, c).source)
    ensures ListCommits(b, c).NoChanges? <==> !HasChangesAlongChain(b)
    decreases b
  {
    if |b.changes| == 0 && b.upstream.Some? {
      ListingSource(b.upstream.value, c);
    }
  }

  /** Some build along the upstream fall-back chain has change entries. */
  predicate HasChangesAlongChain(b: Run)
    decreases b
  {
    |b.changes| > 0 || (b.upstream.Some? && HasChangesAlongChain(b.upstream.value))
  }
}

=== FILE: classifier.dfy ===
/** Result classification: which notification a completed build gets, the verb
    and colour that go with it, and the human-readable status word. */
module Classifier {
  import opened Basics
  import opened Builds

  /** The notification intent of a completed build (`ResultMessageType`). */
  datatype MessageType =
    | AbortedMessage
    | SuccessMessage
    | BackToNormalMessage
    | FailureMessage
    | RepeatedFailureMessage
    | NotBuiltMessage
    | UnstableMessage
    | NoMessage

  /** The outcome a message type announces. */
  function Announces(t: MessageType): Outcome
    requires t != NoMessage
  {
    match t
    case AbortedMessage => Aborted
    case SuccessMessage => Success
    case BackToNormalMessage => Success
    case FailureMessage => Failure
    case RepeatedFailureMessage => Failure
    case NotBuiltMessage => NotBuilt
    case UnstableMessage => Unstable
  }

  /** The preference flag that must be set for a message type to be sent. */
  predicate Enabled(t: MessageType, p: Preferences) {
    match t
    case AbortedMessage => p.notifyAborted
    case SuccessMessage => p.notifySuccess
    case BackToNormalMessage => p.notifyBackToNormal
    case FailureMessage => p.notifyFailure
    case RepeatedFailureMessage => p.notifyRepeatedFailure
    case NotBuiltMessage => p.notifyNotBuilt
    case UnstableMessage => p.notifyUnstable
    case NoMessage => true
  }

  predicate IsBad(r: Option<Outcome>) {
    r == Some(Failure) || r == Some(Unstable)
  }

  /** The first-match decision list of the completion handler. A message is only
      ever sent for the outcome it announces and only when its flag is set. */
  function GetMessageType(result: Option<Outcome>, previous: Option<Outcome>, p: Preferences): (t: MessageType)
    ensures t != NoMessage ==> result == Some(Announces(t))
    ensures Enabled(t, p)
  {
    if result == Some(Aborted) && p.notifyAborted then AbortedMessage
    else if result == Some(Failure) && previous != Some(Failure) && p.notifyFailure then FailureMessage
    else if result == Some(Failure) && p.notifyRepeatedFailure then RepeatedFailureMessage
    else if result == Some(NotBuilt) && p.notifyNotBuilt then NotBuiltMessage
    else if result == Some(Success) && IsBad(previous) && p.notifyBackToNormal then BackToNormalMessage
    else if result == Some(Success) && p.notifySuccess then SuccessMessage
    else if result == Some(Unstable) && p.notifyUnstable then UnstableMessage
    else NoMessage
  }

  /** A failure after a failure is never a plain FAILURE: it is REPEATED_FAILURE
      when that is enabled and otherwise no message, whatever the other flags. */
  lemma FailureAfterFailure(previous: Option<Outcome>, p: Preferences)
    requires previous == Some(Failure)
    ensures GetMessageType(Some(Failure), previous, p) != FailureMessage
    ensures p.notifyRepeatedFailure ==> GetMessageType(Some(Failure), previous, p) == RepeatedFailureMessage
    ensures !p.notifyRepeatedFailure ==> GetMessageType(Some(Failure), previous, p) == NoMessage
  {
  }

  /** A first failure is FAILURE when that is enabled, even with repeated-failure
      notifications on; otherwise it falls through to REPEATED_FAILURE. */
  lemma FirstFailure(previous: Option<Outcome>, p: Preferences)
    requires previous != Some(Failure)
    ensures p.notifyFailure ==> GetMessageType(Some(Failure), previous, p) == FailureMessage
    ensures !p.notifyFailure && p.notifyRepeatedFailure ==> GetMessageType(Some(Failure), previous, p) == RepeatedFailureMessage
  {
  }

  /** BACK_TO_NORMAL is reported exactly for a success after a failure or unstable
      build with its flag set; in that situation the message is never SUCCESS. */
  lemma BackToNormalExactly(result: Option<Outcome>, previous: Option<Outcome>, p: Preferences)
    ensures GetMessageType(result, previous, p) == BackToNormalMessage
            <==> result == Some(Success) && IsBad(previous) && p.notifyBackToNormal
    ensures result == Some(Success) && IsBad(previous) && p.notifyBackToNormal
            ==> GetMessageType(result, previous, p) != SuccessMessage
  {
  }

  /** An aborted build with notifyAborted is ABORTED whatever the other flags and
      the previous result are. */
  lemma AbortedWins(previous: Option<Outcome>, p: Preferences)
    requires p.notifyAborted
    ensures GetMessageType(Some(Aborted), previous, p) == AbortedMessage
  {
  }

  /** When no rule applies the answer is NO_MESSAGE, and only then. */
  lemma NoMessageExactly(result: Option<Outcome>, previous: Option<Outcome>, p: Preferences)
    ensures GetMessageType(result, previous, p) == NoMessage <==>
      match result
      case None => true
      case Some(Aborted) => !p.notifyAborted
      case Some(Failure) => !(previous != Some(Failure) && p.notifyFailure) && !p.notifyRepeatedFailure
      case Some(NotBuilt) => !p.notifyNotBuilt
      case Some(Success) => !(IsBad(previous) && p.notifyBackToNormal) && !p.notifySuccess
      case Some(Unstable) => !p.notifyUnstable
  {
  }

  /** Pointwise order on preference flags: `q` enables at least what `p` enables. */
  predicate AtLeast(q: Preferences, p: Preferences) {
    && (p.notifyAborted ==> q.notifyAborted)
    && (p.notifyFailure ==> q.notifyFailure)
    && (p.notifyRepeatedFailure ==> q.notifyRepeatedFailure)
    && (p.notifyNotBuilt ==> q.notifyNotBuilt)
    && (p.notifyBackToNormal ==> q.notifyBackToNormal)
    && (p.notifySuccess ==> q.notifySuccess)
    && (p.notifyUnstable ==> q.notifyUnstable)
  }

  /** Enabling more flags never silences a build that was notified. */
  lemma MoreFlagsNeverSilence(result: Option<Outcome>, previous: Option<Outcome>, p: Preferences, q: Preferences)
    requires AtLeast(q, p)
    requires GetMessageType(result, previous, p) != NoMessage
    ensures GetMessageType(result, previous, q) != NoMessage
  {
  }

  /** The verb of the status message (`getBuildStatusMessage`). */
  function Verb(t: MessageType): string
  {
    match t
    case SuccessMessage => "passed"
    case BackToNormalMessage => "passed"
    case FailureMessage => "failed"
    case RepeatedFailureMessage => "failed"
    case AbortedMessage => "aborted"
    case NotBuiltMessage => "failed to build"
    case UnstableMessage => "is unstable"
    case NoMessage => "something weird happened"
  }

  /** Reference verb for an outcome. */
  function OutcomeVerb(o: Outcome): string
  {
    match o
    case Success => "passed"
    case Failure => "failed"
    case Aborted => "aborted"
    case NotBuilt => "failed to build"
    case Unstable => "is unstable"
  }

  /** Whenever a message is sent its verb is the verb of the build's own outcome;
      the fallback verb never appears in a sent message. */
  lemma VerbMatchesOutcome(result: Option<Outcome>, previous: Option<Outcome>, p: Preferences)
    requires GetMessageType(result, previous, p) != NoMessage
    ensures result.Some?
    ensures Verb(GetMessageType(result, previous, p)) == OutcomeVerb(result.value)
    ensures Verb(GetMessageType(result, previous, p)) != "something weird happened"
  {
  }

  /** The colour tag of a build's result. */
  function BuildColor(result: Option<Outcome>): (c: string)
    ensures c == "good" || c == "danger" || c == "warning"
    ensures c == "good" <==> result == Some(Success)
    ensures c == "danger" <==> result == Some(Failure)
  {
    if result == Some(Success) then "good"
    else if result == Some(Failure) then "danger"
    else "warning"
  }

  /** The colour of a sent message agrees with its type: the passing types are
      "good", the failing types "danger", the others "warning". */
  lemma ColorAgreesWithMessageType(result: Option<Outcome>, previous: Option<Outcome>, p: Preferences)
    ensures var t := GetMessageType(result, previous, p);
      && (t == SuccessMessage || t == BackToNormalMessage ==> BuildColor(result) == "good")
      && (t == FailureMessage || t == RepeatedFailureMessage ==> BuildColor(result) == "danger")
      && (t == AbortedMessage || t == NotBuiltMessage || t == UnstableMessage ==> BuildColor(result) == "warning")
  {
  }

  /** The status words of the start-message builder. */
  const Starting := "Starting..."
  const BackToNormal := "Back to normal"
  const StillFailing := "Still Failing"

  /** The previous result the status word uses: walk back from the build before
      the project's last build, over every build (running ones included), while
      it was aborted; SUCCESS when the walk runs off the start. */
  function StatusPrevious(h: seq<Run>): Option<Outcome>
    requires |h| > 0
  {
    match Nearest(h, |h| - 1, IsAborted)
    case None => Some(Success)
    case Some(j) => h[j].result
  }

  /** The human-readable status word of the build at position `pos`
      (`MessageBuilder.getStatusMessage`). */
  function StatusWord(h: seq<Run>, pos: nat): string
    requires pos < |h|
  {
    var b := h[pos];
    if b.building then Starting
    else
      var previous := StatusPrevious(h);
      var succeededBefore := PreviousSuccessful(h, pos).Some?;
      if b.result == Some(Success) && IsBad(previous) && succeededBefore then BackToNormal
      else if b.result == Some(Failure) && previous == Some(Failure) then StillFailing
      else if b.result == Some(Success) then "Success"
      else if b.result == Some(Failure) then "Failure"
      else if b.result == Some(Aborted) then "Aborted"
      else if b.result == Some(NotBuilt) then "Not built"
      else if b.result == Some(Unstable) then "Unstable"
      else "Unknown"
  }

  /** "Back to normal" is shown only for a finished successful build whose
      previous non-aborted build failed or was unstable and which has an older
      successful build; and in that situation it is always shown. */
  lemma BackToNormalWord(h: seq<Run>, pos: nat)
    requires pos < |h|
    ensures StatusWord(h, pos) == BackToNormal <==>
      && !h[pos].building
      && h[pos].result == Some(Success)
      && IsBad(StatusPrevious(h))
      && (exists k :: 0 <= k < pos && IsSuccess(h[k]))
  {
    var ps := PreviousSuccessful(h, pos);
    if ps.Some? {
      assert IsSuccess(h[ps.value]);
    }
  }

  /** A finished failure after a failure reads "Still Failing". */
  lemma StillFailingWord(h: seq<Run>, pos: nat)
    requires pos < |h|
    requires !h[pos].building && h[pos].result == Some(Failure)
    requires StatusPrevious(h) == Some(Failure)
    ensures StatusWord(h, pos) == StillFailing
  {
  }

  /** The status word and the classifier disagree on a project's first success:
      after a single failed build the first success is classified BACK_TO_NORMAL
      but its status word is "Success", since nothing succeeded before it. */
  lemma FirstSuccessIsNotBackToNormal(failed: Run, current: Run, p: Preferences)
    requires !failed.building && failed.result == Some(Failure)
    requires !current.building && current.result == Some(Success)
    requires p.notifyBackToNormal
    ensures GetMessageType(current.result, EffectivePrevious([failed, current]), p) == BackToNormalMessage
    ensures StatusWord([failed, current], 1) == "Success"
  {
    var h := [failed, current];
    assert !SkippedByCompletedWalk(h[0]);
    assert !IsAborted(h[0]);
  }
}

=== FILE: escaping.dfy ===
/** The text escaper shared by both message builders: `&`, `<` and `>` are
    replaced by their HTML entities, one whole-string pass per character. */
module Escaping {
  import opened Text

  /** `String.replace` with a one-character target: every occurrence of `c` in `s`
      is replaced by `rep`, scanning left to right. */
  function ReplaceChar(s: string, c: char, rep: string): string
  {
    if |s| == 0 then ""
    else (if s[0] == c then rep else [s[0]]) + ReplaceChar(s[1..], c, rep)
  }

  /** The escaper as the builders write it: three sequential passes, `&` first. */
  function Escape(s: string): string
  {
    ReplaceChar(ReplaceChar(ReplaceChar(s, '&', "&amp;"), '<', "&lt;"), '>', "&gt;")
  }

  /** The escape of one character. */
  function EscapeChar(c: char): string
  {
    if c == '&' then "&amp;"
    else if c == '<' then "&lt;"
    else if c == '>' then "&gt;"
    else [c]
  }

  /** Reference escaper: each input character is escaped on its own. */
  function EscapeEach(s: string): string
  {
    if |s| == 0 then "" else EscapeChar(s[0]) + EscapeEach(s[1..])
  }

  predicate IsSpecial(c: char) {
    c == '&' || c == '<' || c == '>'
  }

  /** `s` holds none of the three characters the escaper rewrites. */
  predicate Plain(s: string) {
    forall i :: 0 <= i < |s| ==> !IsSpecial(s[i])
  }

  /** `s` holds no raw angle bracket, so it cannot open or close a link. */
  predicate NoAngles(s: string) {
    forall i :: 0 <= i < |s| ==> s[i] != '<' && s[i] != '>'
  }

  /** Position `i` of `s` starts one of the three entities the escaper emits. */
  predicate EntityAt(s: string, i: nat) {
    OccursAt(s, i, "&amp;") || OccursAt(s, i, "&lt;") || OccursAt(s, i, "&gt;")
  }

  /** Every `&` in `s` begins an entity. */
  predicate AmpersandsAreEntities(s: string) {
    forall i :: 0 <= i < |s| && s[i] == '&' ==> EntityAt(s, i)
  }

  /** The shape of every escaped string: no raw angle bracket, and each `&` begins an entity. */
  predicate Escaped(s: string) {
    NoAngles(s) && AmpersandsAreEntities(s)
  }

  lemma {:induction false} ReplaceCharAppend(a: string, b: string, c: char, rep: string)
    ensures ReplaceChar(a + b, c, rep) == ReplaceChar(a, c, rep) + ReplaceChar(b, c, rep)
  {
    if |a| == 0 {
      assert a + b == b;
    } else {
      assert (a + b)[1..] == a[1..] + b;
      ReplaceCharAppend(a[1..], b, c, rep);
    }
  }

  lemma ReplaceCharSingle(x: char, c: char, rep: string)
    ensures ReplaceChar([x], c, rep) == if x == c then rep else [x]
  {
    assert [x][1..] == [];
  }

  lemma {:induction false} ReplaceCharAbsent(s: string, c: char, rep: string)
    requires forall i :: 0 <= i < |s| ==> s[i] != c
    ensures ReplaceChar(s, c, rep) == s
  {
    if |s| > 0 {
      ReplaceCharAbsent(s[1..], c, rep);
    }
  }

  /** Escaping distributes over concatenation, so escaping fragments one at a time
      (as the builders do) equals escaping their concatenation. */
  lemma EscapeAppend(a: string, b: string)
    ensures Escape(a + b) == Escape(a) + Escape(b)
  {
    var a1, b1 := ReplaceChar(a, '&', "&amp;"), ReplaceChar(b, '&', "&amp;");
    var a2, b2 := ReplaceChar(a1, '<', "&lt;"), ReplaceChar(b1, '<', "&lt;");
    ReplaceCharAppend(a, b, '&', "&amp;");
    ReplaceCharAppend(a1, b1, '<', "&lt;");
    ReplaceCharAppend(a2, b2, '>', "&gt;");
  }

  /** One character through the three passes: no pass rewrites what an earlier
      pass inserted. */
  lemma EscapeOne(x: char)
    ensures Escape([x]) == EscapeChar(x)
  {
    var r1 := ReplaceChar([x], '&', "&amp;");
    var r2 := ReplaceChar(r1, '<', "&lt;");
    ReplaceCharSingle(x, '&', "&amp;");
    if x == '&' {
      ReplaceCharAbsent("&amp;", '<', "&lt;");
      ReplaceCharAbsent("&amp;", '>', "&gt;");
    } else {
      ReplaceCharSingle(x, '<', "&lt;");
      if x == '<' {
        ReplaceCharAbsent("&lt;", '>', "&gt;");
      } else {
        ReplaceCharSingle(x, '>', "&gt;");
      }
    }
  }

  /** The three sequential passes escape each character independently. */
  lemma {:induction false} EscapeIsPerCharacter(s: string)
    ensures Escape(s) == EscapeEach(s)
  {
    if |s| > 0 {
      assert s == [s[0]] + s[1..];
      EscapeAppend([s[0]], s[1..]);
      EscapeOne(s[0]);
      EscapeIsPerCharacter(s[1..]);
    }
  }

  lemma {:induction false} EscapeEachPlain(s: string)
    requires Plain(s)
    ensures EscapeEach(s) == s
  {
    if |s| > 0 {
      EscapeEachPlain(s[1..]);
    }
  }

  /** Text without `&`, `<` or `>` passes through the escaper unchanged. */
  lemma EscapePlain(s: string)
    requires Plain(s)
    ensures Escape(s) == s
  {
    EscapeIsPerCharacter(s);
    EscapeEachPlain(s);
  }

  lemma EntityInPrefix(a: string, b: string, i: nat)
    requires EntityAt(a, i)
    ensures EntityAt(a + b, i)
  {
    var s := a + b;
    if OccursAt(a, i, "&amp;") {
      assert s[i..i + 5] == a[i..i + 5];
    } else if OccursAt(a, i, "&lt;") {
      assert s[i..i + 4] == a[i..i + 4];
    } else {
      assert s[i..i + 4] == a[i..i + 4];
    }
  }

  lemma EntityInSuffix(a: string, b: string, j: nat)
    requires EntityAt(b, j)
    ensures EntityAt(a + b, |a| + j)
  {
    var s, i := a + b, |a| + j;
    if OccursAt(b, j, "&amp;") {
      assert s[i..i + 5] == b[j..j + 5];
    } else if OccursAt(b, j, "&lt;") {
      assert s[i..i + 4] == b[j..j + 4];
    } else {
      assert s[i..i + 4] == b[j..j + 4];
    }
  }

  lemma EscapedAppend(a: string, b: string)
    requires Escaped(a) && Escaped(b)
    ensures Escaped(a + b)
  {
    var s := a + b;
    forall i | 0 <= i < |s| && s[i] == '&'
      ensures EntityAt(s, i)
    {
      if i < |a| {
        EntityInPrefix(a, b, i);
      } else {
        assert b[i - |a|] == '&';
        EntityInSuffix(a, b, i - |a|);
      }
    }
  }

  lemma {:induction false} EscapeEachIsEscaped(s: string)
    ensures Escaped(EscapeEach(s))
  {
    if |s| > 0 {
      var c := s[0];
      var e := EscapeChar(c);
      if c == '&' {
        assert OccursAt(e, 0, "&amp;");
      } else if c == '<' {
        assert OccursAt(e, 0, "&lt;");
      } else if c == '>' {
        assert OccursAt(e, 0, "&gt;");
      }
      assert Escaped(e);
      EscapeEachIsEscaped(s[1..]);
      EscapedAppend(e, EscapeEach(s[1..]));
    }
  }

  /** Escaped text holds no raw `<` or `>`, and every `&` in it begins `&amp;`,
      `&lt;` or `&gt;`. */
  lemma EscapeIsEscaped(s: string)
    ensures NoAngles(Escape(s))
    ensures forall i :: 0 <= i < |Escape(s)| && Escape(s)[i] == '&' ==> EntityAt(Escape(s), i)
  {
    EscapeIsPerCharacter(s);
    EscapeEachIsEscaped(s);
  }

  /** Decodes the three entities; every other character stands for itself. */
  function Unescape(s: string): string
    decreases |s|
  {
    if |s| == 0 then ""
    else if s[0] != '&' then [s[0]] + Unescape(s[1..])
    else if OccursAt(s, 0, "&amp;") then "&" + Unescape(s[5..])
    else if OccursAt(s, 0, "&lt;") then "<" + Unescape(s[4..])
    else if OccursAt(s, 0, "&gt;") then ">" + Unescape(s[4..])
    else [s[0]] + Unescape(s[1..])
  }

  /** Decoding an entity followed by more text. */
  lemma UnescapeEntity(e: string, c: char, rest: string)
    requires (e, c) == ("&amp;", '&') || (e, c) == ("&lt;", '<') || (e, c) == ("&gt;", '>')
    ensures Unescape(e + rest) == [c] + Unescape(rest)
  {
    var t := e + rest;
    assert t[..|e|] == e && t[|e|..] == rest;
    assert t[0] == '&';
    if c == '&' {
      assert OccursAt(t, 0, "&amp;");
    } else if c == '<' {
      assert !OccursAt(t, 0, "&amp;") by { assert t[1] == 'l'; }
      assert OccursAt(t, 0, "&lt;");
    } else {
      assert !OccursAt(t, 0, "&amp;") by { assert t[1] == 'g'; }
      assert !OccursAt(t, 0, "&lt;") by { assert t[1] == 'g'; }
      assert OccursAt(t, 0, "&gt;");
    }
  }

  lemma {:induction false} UnescapeEscapeEach(s: string)
    ensures Unescape(EscapeEach(s)) == s
  {
    if |s| > 0 {
      var rest := EscapeEach(s[1..]);
      UnescapeEscapeEach(s[1..]);
      if s[0] == '&' {
        UnescapeEntity("&amp;", '&', rest);
      } else if s[0] == '<' {
        UnescapeEntity("&lt;", '<', rest);
      } else if s[0] == '>' {
        UnescapeEntity("&gt;", '>', rest);
      } else {
        var t := [s[0]] + rest;
        assert t[0] == s[0] && t[1..] == rest;
      }
      assert [s[0]] + s[1..] == s;
    }
  }

  /** Escaping loses no information: decoding the entities gives back the input. */
  lemma EscapeRoundTrip(s: string)
    ensures Unescape(Escape(s)) == s
  {
    EscapeIsPerCharacter(s);
    UnescapeEscapeEach(s);
  }

  lemma {:induction false} EscapeEachGrows(s: string)
    ensures |EscapeEach(s)| >= |s|
    ensures !Plain(s) ==> |EscapeEach(s)| > |s|
    ensures !Plain(s) ==> exists i :: 0 <= i < |EscapeEach(s)| && EscapeEach(s)[i] == '&'
  {
    if |s| > 0 {
      EscapeEachGrows(s[1..]);
      var e, rest := EscapeChar(s[0]), EscapeEach(s[1..]);
      if IsSpecial(s[0]) {
        assert (e + rest)[0] == '&';
      } else if !Plain(s) {
        assert !Plain(s[1..]) by {
          var k :| 0 <= k < |s| && IsSpecial(s[k]);
          assert s[1..][k - 1] == s[k];
        }
        var i :| 0 <= i < |rest| && rest[i] == '&';
        assert (e + rest)[|e| + i] == '&';
      }
    }
  }

  /** The strings the escaper leaves unchanged are exactly those without `&`, `<` and `>`. */
  lemma EscapeFixedPoints(s: string)
    ensures Escape(s) == s <==> Plain(s)
  {
    EscapeIsPerCharacter(s);
    EscapeEachGrows(s);
    if Plain(s) {
      EscapeEachPlain(s);
    }
  }

  /** Escaping is not idempotent: text that needed escaping is changed again by a
      second pass, because its entities begin with `&`. */
  lemma EscapeNotIdempotent(s: string)
    requires !Plain(s)
    ensures Escape(Escape(s)) != Escape(s)
  {
    EscapeIsPerCharacter(s);
    EscapeEachGrows(s);
    EscapeFixedPoints(Escape(s));
  }
}

=== FILE: messages.dfy ===
/** The message formatter. A message builder is modelled as the sequence of its
    appends: `Appended` text goes through the builder's escaping `append`,
    `Verbatim` text is written straight onto the underlying buffer (the " - "
    and " " between the names, link markup, " after " and the duration of a
    start message, the test summary, the custom message). */
module Messages {
  import opened Basics
  import opened Text
  import opened Escaping
  import opened Builds
  import opened Classifier
  import opened Changes

  datatype Piece = Appended(text: string) | Verbatim(text: string)

  /** Why building a message can fail: the Java code dereferences a null. */
  datatype Fault =
    | MissingCommitAuthor      // ghprbPullId is set but ghprbActualCommitAuthor is not
    | MissingPreviousSuccess   // a back-to-normal span without an earlier successful build

  function PieceText(p: Piece): string {
    match p
    case Appended(t) => Escape(t)
    case Verbatim(t) => t
  }

  /** The buffer contents after the given appends. */
  function Render(ps: seq<Piece>): string
  {
    if |ps| == 0 then "" else PieceText(ps[0]) + Render(ps[1..])
  }

  lemma {:induction false} RenderAppend(a: seq<Piece>, b: seq<Piece>)
    ensures Render(a + b) == Render(a) + Render(b)
  {
    if |a| == 0 {
      assert a + b == b;
    } else {
      assert (a + b)[1..] == a[1..] + b;
      RenderAppend(a[1..], b);
    }
  }

  /** Consecutive appends render to a contiguous part of the message, right after
      what the appends before them rendered. */
  lemma RenderSlice(ps: seq<Piece>, i: nat, j: nat)
    requires i <= j <= |ps|
    ensures OccursAt(Render(ps), |Render(ps[..i])|, Render(ps[i..j]))
  {
    assert ps == ps[..i] + ps[i..j] + ps[j..];
    RenderAppend(ps[..i] + ps[i..j], ps[j..]);
    RenderAppend(ps[..i], ps[i..j]);
  }

  /** Appends made through the escaping `append` alone render as the escape of
      their concatenated texts. */
  lemma {:induction false} RenderEscapedRun(ps: seq<Piece>)
    requires AllAppended(ps)
    ensures Render(ps) == Escape(Texts(ps))
  {
    if |ps| > 0 {
      RenderEscapedRun(ps[1..]);
      EscapeAppend(ps[0].text, Texts(ps[1..]));
    }
  }

  /** The texts of the appends, concatenated. */
  function Texts(ps: seq<Piece>): string
  {
    if |ps| == 0 then "" else ps[0].text + Texts(ps[1..])
  }

  /** Number of `<` and `>` characters: the link markup in a text. */
  function Angles(s: string): nat
  {
    if |s| == 0 then 0 else (if s[0] == '<' || s[0] == '>' then 1 else 0) + Angles(s[1..])
  }

  lemma {:induction false} AnglesAppend(a: string, b: string)
    ensures Angles(a + b) == Angles(a) + Angles(b)
  {
    if |a| == 0 {
      assert a + b == b;
    } else {
      assert (a + b)[1..] == a[1..] + b;
      AnglesAppend(a[1..], b);
    }
  }

  lemma {:induction false} NoAnglesCount(s: string)
    ensures Angles(s) == 0 <==> NoAngles(s)
  {
    if |s| > 0 {
      NoAnglesCount(s[1..]);
      if NoAngles(s[1..]) && s[0] != '<' && s[0] != '>' {
        assert NoAngles(s);
      }
    }
  }

  /** Link markup contributed by the verbatim pieces. */
  function VerbatimAngles(ps: seq<Piece>): nat
  {
    if |ps| == 0 then 0
    else (if ps[0].Verbatim? then Angles(ps[0].text) else 0) + VerbatimAngles(ps[1..])
  }

  /** Escaped appends contribute no markup: every `<` or `>` of the rendered
      message comes from a verbatim piece. */
  lemma {:induction false} MarkupOnlyFromVerbatim(ps: seq<Piece>)
    ensures Angles(Render(ps)) == VerbatimAngles(ps)
  {
    if |ps| > 0 {
      MarkupOnlyFromVerbatim(ps[1..]);
      AnglesAppend(PieceText(ps[0]), Render(ps[1..]));
      if ps[0].Appended? {
        EscapeIsEscaped(ps[0].text);
        NoAnglesCount(Escape(ps[0].text));
      }
    }
  }

  lemma {:induction false} VerbatimAnglesAppend(a: seq<Piece>, b: seq<Piece>)
    ensures VerbatimAngles(a + b) == VerbatimAngles(a) + VerbatimAngles(b)
  {
    if |a| == 0 {
      assert a + b == b;
    } else {
      assert (a + b)[1..] == a[1..] + b;
      VerbatimAnglesAppend(a[1..], b);
    }
  }

  /** Link markup `<url|text>`, written verbatim. */
  function Link(url: string, text: string): string {
    "<" + url + "|" + text + ">"
  }

  lemma LinkAngles(url: string, text: string)
    requires NoAngles(url) && NoAngles(text)
    ensures Angles(Link(url, text)) == 2
  {
    NoAnglesCount(url);
    NoAnglesCount(text);
    AnglesAppend("<" + url + "|" + text, ">");
    AnglesAppend("<" + url + "|", text);
    AnglesAppend("<" + url, "|");
    AnglesAppend("<", url);
  }

  /** `startMessage`: the project's full display name and the build's display
      name, both escaped. */
  function Header(b: Run): seq<Piece> {
    [Appended(b.projectName), Verbatim(" - "), Appended(b.displayName), Verbatim(" ")]
  }

  /** The build's URL on the build server. */
  function BuildUrl(cfg: Config, b: Run): string {
    cfg.buildServerUrl + b.url
  }

  /** What `startMessage` writes: the project name and the build's display name,
      each escaped, separated by " - " and followed by a blank. */
  function HeaderText(b: Run): string {
    Escape(b.projectName) + " - " + Escape(b.displayName) + " "
  }

  lemma HeaderRender(b: Run)
    ensures Render(Header(b)) == HeaderText(b)
  {
    FourPiecesRender(Appended(b.projectName), Verbatim(" - "), Appended(b.displayName), Verbatim(" "));
  }

  /** A message whose first appends are `startMessage`'s begins with its text. */
  lemma HeaderLeads(b: Run, rest: seq<Piece>)
    ensures StartsWith(Render(Header(b) + rest), HeaderText(b))
  {
    RenderAppend(Header(b), rest);
    HeaderRender(b);
    PrefixOfAppend(Render(Header(b)), Render(rest));
  }

  lemma PrefixOfAppend(a: string, t: string)
    ensures StartsWith(a + t, a)
  {
    assert (a + t)[..|a|] == a;
  }

  /** The text `appendOpenLink` writes: " (" and a link to the build labelled
      "Open", then ")". */
  function OpenLinkText(cfg: Config, b: Run): string {
    " (" + Link(BuildUrl(cfg, b), "Open") + ")"
  }

  /** `appendOpenLink`. */
  function OpenLink(cfg: Config, b: Run): Piece {
    Verbatim(OpenLinkText(cfg, b))
  }

  /** The custom-message block, as the host's expansion returned it. */
  function CustomBlock(cfg: Config): seq<Piece> {
    if cfg.includeCustomMessage then [Verbatim("\n"), Verbatim(cfg.customMessage)] else []
  }

  // ---------------------------------------------------------------------------
  // Test summary

  /** The passed count of the test summary, computed in Java `int` arithmetic.
      For consistent counts it is the number of tests that neither failed nor
      were skipped, so the three reported numbers add up to the total. */
  function PassedCount(t: TestCounts): (r: Int32)
    ensures (t.total - t.failed - t.skipped - r) % TwoTo32 == 0
    ensures 0 <= t.failed && 0 <= t.skipped && t.failed + t.skipped <= t.total ==>
              r == t.total - t.failed - t.skipped && r + t.failed + t.skipped == t.total && r >= 0
  {
    var d := Wrap32(t.total - t.failed);
    WrapSubtract(t.total - t.failed, d, t.skipped);
    Wrap32(d - t.skipped)
  }

  lemma WrapSubtract(x: int, d: int, s: int)
    requires (x - d) % TwoTo32 == 0
    ensures (x - s - Wrap32(d - s)) % TwoTo32 == 0
  {
    var w := Wrap32(d - s);
    assert (d - s - w) % TwoTo32 == 0;
    var k1 := (x - d) / TwoTo32;
    var k2 := (d - s - w) / TwoTo32;
    assert x - d == k1 * TwoTo32;
    assert d - s - w == k2 * TwoTo32;
    assert x - s - w == (k1 + k2) * TwoTo32;
  }

  /** `appendTestSummary`. */
  function TestSummary(tests: Option<TestCounts>): string
  {
    match tests
    case None => "\nNo Tests found."
    case Some(t) =>
      "\nTest Status:\n" + "\tPassed: " + IntToDecimal(PassedCount(t))
      + ", Failed: " + IntToDecimal(t.failed) + ", Skipped: " + IntToDecimal(t.skipped)
  }

  lemma PlainAppend(a: string, b: string)
    requires Plain(a) && Plain(b)
    ensures Plain(a + b)
  {
    var s := a + b;
    forall i | 0 <= i < |s| ensures !IsSpecial(s[i]) {
      if i >= |a| {
        assert s[i] == b[i - |a|];
      }
    }
  }

  lemma DecimalIsPlain(i: int)
    ensures Plain(IntToDecimal(i))
  {
    var d := NatToDecimal(if i < 0 then -i else i);
    assert Plain(d) by {
      forall k | 0 <= k < |d| ensures !IsSpecial(d[k]) {
        assert IsDigit(d[k]);
      }
    }
    if i < 0 {
      PlainAppend("-", d);
    }
  }

  /** The test summary is written verbatim, yet it carries no markup and would
      read the same had it been escaped: it holds only fixed text and numbers. */
  lemma TestSummaryIsPlain(tests: Option<TestCounts>)
    ensures Plain(TestSummary(tests))
    ensures Escape(TestSummary(tests)) == TestSummary(tests)
  {
    if tests.Some? {
      var t := tests.value;
      DecimalIsPlain(PassedCount(t));
      DecimalIsPlain(t.failed);
      DecimalIsPlain(t.skipped);
      CountsLinePlain(IntToDecimal(PassedCount(t)), IntToDecimal(t.failed), IntToDecimal(t.skipped));
    }
    EscapePlain(TestSummary(tests));
  }

  lemma CountsLinePlain(passed: string, failed: string, skipped: string)
    requires Plain(passed) && Plain(failed) && Plain(skipped)
    ensures Plain("\nTest Status:\n" + "\tPassed: " + passed + ", Failed: " + failed + ", Skipped: " + skipped)
  {
    var s1 := "\nTest Status:\n" + "\tPassed: ";
    var s2 := s1 + passed;
    var s3 := s2 + ", Failed: ";
    var s4 := s3 + failed;
    var s5 := s4 + ", Skipped: ";
    PlainAppend(s1, passed);
    PlainAppend(s2, ", Failed: ");
    PlainAppend(s3, failed);
    PlainAppend(s4, ", Skipped: ");
    PlainAppend(s5, skipped);
  }

  /** For consistent counts the summary reports the three counts in decimal. */
  lemma TestSummaryConsistent(t: TestCounts)
    requires 0 <= t.failed && 0 <= t.skipped && t.failed + t.skipped <= t.total
    ensures TestSummary(Some(t)) ==
      "\nTest Status:\n\tPassed: " + NatToDecimal(t.total - t.failed - t.skipped)
      + ", Failed: " + NatToDecimal(t.failed) + ", Skipped: " + NatToDecimal(t.skipped)
  {
    var passed: nat := t.total - t.failed - t.skipped;
    assert PassedCount(t) == passed;
    NonNegativeDecimal(passed);
    NonNegativeDecimal(t.failed);
    NonNegativeDecimal(t.skipped);
    SummaryWords(NatToDecimal(passed), NatToDecimal(t.failed), NatToDecimal(t.skipped));
  }

  lemma NonNegativeDecimal(n: nat)
    ensures IntToDecimal(n) == NatToDecimal(n)
  {
  }

  lemma SummaryWords(passed: string, failed: string, skipped: string)
    ensures "\nTest Status:\n" + "\tPassed: " + passed + ", Failed: " + failed + ", Skipped: " + skipped
         == "\nTest Status:\n\tPassed: " + passed + ", Failed: " + failed + ", Skipped: " + skipped
  {
    assert "\nTest Status:\n" + "\tPassed: " == "\nTest Status:\n\tPassed: ";
  }

  // ---------------------------------------------------------------------------
  // Completion status message

  const SourceBranchKey := "ghprbSourceBranch"
  const PullIdKey := "ghprbPullId"
  const PullLinkKey := "ghprbPullLink"
  const CommitAuthorKey := "ghprbActualCommitAuthor"

  /** `Map.get` as `StringBuffer.append` prints it: a missing value reads "null". */
  function GetOrNull(m: map<string, string>, k: string): string {
    if k in m then m[k] else "null"
  }

  /** The "triggered by" loop: non-empty cause strings, separated by ", ". */
  function CausePieces(causes: seq<string>, needsComma: bool): seq<Piece>
  {
    if |causes| == 0 then []
    else if causes[0] == "" then CausePieces(causes[1..], needsComma)
    else (if needsComma then [Appended(", ")] else []) + [Appended(causes[0])] + CausePieces(causes[1..], true)
  }

  /** The non-empty elements of `xs`, in order. */
  function NonEmpty(xs: seq<string>): seq<string>
  {
    if |xs| == 0 then [] else (if xs[0] == "" then [] else [xs[0]]) + NonEmpty(xs[1..])
  }

  lemma {:induction false} JoinCons(x: string, xs: seq<string>, sep: string)
    requires |xs| > 0
    ensures Join([x] + xs, sep) == x + sep + Join(xs, sep)
  {
    assert ([x] + xs)[1..] == xs;
  }

  /** The loop writes exactly the escaped comma-join of the non-empty causes. */
  lemma {:induction false} CausePiecesJoin(causes: seq<string>, needsComma: bool)
    ensures Render(CausePieces(causes, needsComma)) ==
      (if needsComma && |NonEmpty(causes)| > 0 then Escape(", ") else "") + Escape(Join(NonEmpty(causes), ", "))
  {
    if |causes| > 0 {
      var c, rest := causes[0], causes[1..];
      if c != "" {
        var tail := CausePieces(rest, true);
        assert CausePieces(causes, needsComma) == (if needsComma then [Appended(", ")] else []) + [Appended(c)] + tail;
        CausePiecesJoin(rest, true);
        CauseHeadRender(c, needsComma, tail);
        JoinEscapeStep(c, NonEmpty(rest));
        assert NonEmpty(causes) == [c] + NonEmpty(rest);
        CauseStepRegroup(needsComma, Escape(", "), Escape(c), |NonEmpty(rest)| > 0,
          Escape(Join(NonEmpty(rest), ", ")), Render(CausePieces(causes, needsComma)), Render(tail),
          Escape(Join(NonEmpty(causes), ", ")));
      } else {
        CausePiecesJoin(rest, needsComma);
        assert NonEmpty(causes) == NonEmpty(rest);
      }
    }
  }

  lemma CauseStepRegroup(needsComma: bool, comma: string, head: string, more: bool, joined: string,
                         whole: string, tail: string, all: string)
    requires whole == (if needsComma then comma else "") + head + tail
    requires tail == (if more then comma else "") + joined
    requires all == head + (if more then comma else "") + joined
    ensures whole == (if needsComma then comma else "") + all
  {
  }

  lemma CauseHeadRender(c: string, needsComma: bool, tail: seq<Piece>)
    ensures Render((if needsComma then [Appended(", ")] else []) + [Appended(c)] + tail) ==
      (if needsComma then Escape(", ") else "") + Escape(c) + Render(tail)
  {
    var head: seq<Piece> := (if needsComma then [Appended(", ")] else []) + [Appended(c)];
    RenderAppend(head, tail);
    if needsComma {
      RenderAppend([Appended(", ")], [Appended(c)]);
      assert Render([Appended(", ")]) == Escape(", ");
    }
    assert Render([Appended(c)]) == Escape(c);
  }

  lemma JoinEscapeStep(c: string, xs: seq<string>)
    ensures Escape(Join([c] + xs, ", ")) ==
      Escape(c) + (if |xs| > 0 then Escape(", ") else "") + Escape(Join(xs, ", "))
  {
    if |xs| > 0 {
      JoinCons(c, xs, ", ");
      EscapeAppend(c + ", ", Join(xs, ", "));
      EscapeAppend(c, ", ");
    } else {
      assert [c] + xs == [c];
    }
  }

  /** What follows "Build #id of": the pull request's source branch when the build
      has one, otherwise the project name and the causes. */
  function SubjectPieces(b: Run): seq<Piece>
  {
    if SourceBranchKey in b.variables then [Appended(" of "), Appended(b.variables[SourceBranchKey])]
    else
      [Appended(" of "), Appended(b.projectName)]
      + (if |b.causes| > 0 then [Appended(" triggered by ")] + CausePieces(b.causes, false) else [])
  }

  /** The " in PR #id by author" part, absent without a pull id. A pull id
      without a commit author makes the Java code fail on a null. */
  function PullRequestPieces(b: Run): Result<seq<Piece>, Fault>
  {
    if PullIdKey !in b.variables then Ok([])
    else if CommitAuthorKey !in b.variables then Err(MissingCommitAuthor)
    else Ok([Appended(" in PR "),
             Verbatim(Link(GetOrNull(b.variables, PullLinkKey), "#" + b.variables[PullIdKey])),
             Appended(" by "),
             Appended(b.variables[CommitAuthorKey])])
  }

  /** "Build <url|#id>". */
  function BuildLinkPieces(cfg: Config, b: Run): seq<Piece> {
    [Appended("Build"), Appended(" "), Verbatim(Link(BuildUrl(cfg, b), "#" + b.id))]
  }

  /** " {verb} after {duration}". */
  function VerbPieces(t: MessageType, b: Run): seq<Piece> {
    [Appended(" "), Appended(Verb(t)), Appended(" after "), Appended(b.durationText)]
  }

  function TestPieces(shown: bool, b: Run): seq<Piece> {
    if shown then [Verbatim(TestSummary(b.tests))] else []
  }

  function StatusPieces(t: MessageType, b: Run, cfg: Config, pr: seq<Piece>): seq<Piece>
  {
    BuildLinkPieces(cfg, b) + SubjectPieces(b) + pr + VerbPieces(t, b)
    + TestPieces(cfg.includeTestSummary, b) + CustomBlock(cfg)
  }

  /** `getBuildStatusMessage`. */
  function StatusMessage(t: MessageType, b: Run, cfg: Config): (r: Result<string, Fault>)
    ensures r.Err? <==> PullIdKey in b.variables && CommitAuthorKey !in b.variables
  {
    match PullRequestPieces(b)
    case Err(e) => Err(e)
    case Ok(pr) => Ok(Render(StatusPieces(t, b, cfg, pr)))
  }

  /** With a source-branch variable the branch replaces the project name, and
      neither the project name nor the causes appear in the message. */
  lemma BranchReplacesProjectName(t: MessageType, b: Run, cfg: Config, name: string, causes: seq<string>)
    requires SourceBranchKey in b.variables
    ensures StatusMessage(t, b, cfg) == StatusMessage(t, b.(projectName := name, causes := causes), cfg)
    ensures SubjectPieces(b) == [Appended(" of "), Appended(b.variables[SourceBranchKey])]
  {
  }

  /** The text of the status message: it opens with "Build ", links the build,
      names the branch or else the project after " of ", and carries the escaped
      " {verb} after {duration}", which ends the message unless a test summary or
      custom message follows. */
  lemma StatusMessageShape(t: MessageType, b: Run, cfg: Config)
    requires StatusMessage(t, b, cfg).Ok?
    ensures |StatusMessage(t, b, cfg).value| >= 6 && StatusMessage(t, b, cfg).value[..6] == "Build "
    ensures Contains(StatusMessage(t, b, cfg).value, Link(BuildUrl(cfg, b), "#" + b.id))
    ensures Contains(StatusMessage(t, b, cfg).value, " of " + Escape(Subject(b)))
    ensures Contains(StatusMessage(t, b, cfg).value, Escape(" " + Verb(t) + " after " + b.durationText))
    ensures var m, tail := StatusMessage(t, b, cfg).value, Escape(" " + Verb(t) + " after " + b.durationText);
      !cfg.includeTestSummary && !cfg.includeCustomMessage ==> |tail| <= |m| && m[|m| - |tail|..] == tail
  {
    StatusMessageOpening(t, b, cfg);
    StatusMessageEnding(t, b, cfg);
  }

  lemma StatusMessageOpening(t: MessageType, b: Run, cfg: Config)
    requires StatusMessage(t, b, cfg).Ok?
    ensures |StatusMessage(t, b, cfg).value| >= 6 && StatusMessage(t, b, cfg).value[..6] == "Build "
    ensures Contains(StatusMessage(t, b, cfg).value, Link(BuildUrl(cfg, b), "#" + b.id))
    ensures Contains(StatusMessage(t, b, cfg).value, " of " + Escape(Subject(b)))
  {
    StatusMessageParts(t, b, cfg);
    StringLayout(StatusMessage(t, b, cfg).value, "Build ", Link(BuildUrl(cfg, b), "#" + b.id),
                 " of " + Escape(Subject(b)), Render(SubjectPieces(b)[2..]), Render(PullRequestPieces(b).value),
                 Escape(" " + Verb(t) + " after " + b.durationText),
                 Render(TestPieces(cfg.includeTestSummary, b) + CustomBlock(cfg)));
  }

  lemma StatusMessageEnding(t: MessageType, b: Run, cfg: Config)
    requires StatusMessage(t, b, cfg).Ok?
    ensures Contains(StatusMessage(t, b, cfg).value, Escape(" " + Verb(t) + " after " + b.durationText))
    ensures var m, tail := StatusMessage(t, b, cfg).value, Escape(" " + Verb(t) + " after " + b.durationText);
      !cfg.includeTestSummary && !cfg.includeCustomMessage ==> |tail| <= |m| && m[|m| - |tail|..] == tail
  {
    StatusMessageParts(t, b, cfg);
    StatusEndingLayout(StatusMessage(t, b, cfg).value, b, cfg,
                       ("Build " + Link(BuildUrl(cfg, b), "#" + b.id))
                       + (" of " + Escape(Subject(b)) + Render(SubjectPieces(b)[2..]))
                       + Render(PullRequestPieces(b).value),
                       Escape(" " + Verb(t) + " after " + b.durationText));
  }

  lemma StatusEndingLayout(m: string, b: Run, cfg: Config, head: string, v: string)
    requires m == head + v + Render(TestPieces(cfg.includeTestSummary, b) + CustomBlock(cfg))
    ensures Contains(m, v)
    ensures !cfg.includeTestSummary && !cfg.includeCustomMessage ==> |v| <= |m| && m[|m| - |v|..] == v
  {
    if !cfg.includeTestSummary && !cfg.includeCustomMessage {
      NoTrailer(b, cfg);
    }
    StringLayoutEnd(m, head, v, Render(TestPieces(cfg.includeTestSummary, b) + CustomBlock(cfg)));
  }

  lemma NoTrailer(b: Run, cfg: Config)
    requires !cfg.includeTestSummary && !cfg.includeCustomMessage
    ensures Render(TestPieces(cfg.includeTestSummary, b) + CustomBlock(cfg)) == []
  {
    assert TestPieces(cfg.includeTestSummary, b) + CustomBlock(cfg) == [];
  }

  /** With a pull id, the message names the pull request as a link and its
      escaped commit author. */
  lemma StatusMessagePullRequest(t: MessageType, b: Run, cfg: Config)
    requires StatusMessage(t, b, cfg).Ok? && PullIdKey in b.variables
    ensures CommitAuthorKey in b.variables
    ensures Contains(StatusMessage(t, b, cfg).value,
                     " in PR " + Link(GetOrNull(b.variables, PullLinkKey), "#" + b.variables[PullIdKey])
                     + " by " + Escape(b.variables[CommitAuthorKey]))
  {
    StatusMessageParts(t, b, cfg);
    StringLayoutMiddle(StatusMessage(t, b, cfg).value, "Build ", Link(BuildUrl(cfg, b), "#" + b.id),
                       " of " + Escape(Subject(b)), Render(SubjectPieces(b)[2..]), Render(PullRequestPieces(b).value),
                       Escape(" " + Verb(t) + " after " + b.durationText),
                       Render(TestPieces(cfg.includeTestSummary, b) + CustomBlock(cfg)));
    PullWordsRender(Link(GetOrNull(b.variables, PullLinkKey), "#" + b.variables[PullIdKey]), b.variables[CommitAuthorKey]);
  }

  /** Without a source branch, the message lists the non-empty causes after
      " triggered by ", escaped and separated by ", ". */
  lemma StatusMessageCauses(t: MessageType, b: Run, cfg: Config)
    requires StatusMessage(t, b, cfg).Ok? && SourceBranchKey !in b.variables && |b.causes| > 0
    ensures Contains(StatusMessage(t, b, cfg).value, " triggered by " + Escape(Join(NonEmpty(b.causes), ", ")))
  {
    StatusMessageParts(t, b, cfg);
    StringLayoutMiddle(StatusMessage(t, b, cfg).value, "Build ", Link(BuildUrl(cfg, b), "#" + b.id),
                       " of " + Escape(Subject(b)), Render(SubjectPieces(b)[2..]), Render(PullRequestPieces(b).value),
                       Escape(" " + Verb(t) + " after " + b.durationText),
                       Render(TestPieces(cfg.includeTestSummary, b) + CustomBlock(cfg)));
    assert SubjectPieces(b)[2..] == [Appended(" triggered by ")] + CausePieces(b.causes, false);
    TriggeredByRender(b.causes);
  }

  lemma TriggeredByRender(causes: seq<string>)
    ensures Render([Appended(" triggered by ")] + CausePieces(causes, false))
            == " triggered by " + Escape(Join(NonEmpty(causes), ", "))
  {
    RenderCons(Appended(" triggered by "), CausePieces(causes, false));
    CausePiecesJoin(causes, false);
    TriggeredByIsPlain();
    PrefixRegroup(Render([Appended(" triggered by ")] + CausePieces(causes, false)), Escape(" triggered by "),
                  " triggered by ", Render(CausePieces(causes, false)), Escape(Join(NonEmpty(causes), ", ")));
  }

  lemma PrefixRegroup(whole: string, head: string, plain: string, tail: string, body: string)
    requires whole == head + tail && head == plain && tail == "" + body
    ensures whole == plain + body
  {
  }

  lemma TriggeredByIsPlain()
    ensures Escape(" triggered by ") == " triggered by "
  {
    EscapePlain(" triggered by ");
  }

  lemma PullWordsRender(link: string, author: string)
    ensures Render([Appended(" in PR "), Verbatim(link), Appended(" by "), Appended(author)])
            == " in PR " + link + " by " + Escape(author)
  {
    FourPiecesRender(Appended(" in PR "), Verbatim(link), Appended(" by "), Appended(author));
    InPrIsPlain();
    ByIsPlain();
  }

  lemma FourPiecesRender(p: Piece, q: Piece, r: Piece, u: Piece)
    ensures Render([p, q, r, u]) == PieceText(p) + PieceText(q) + PieceText(r) + PieceText(u)
  {
    ThreePiecesRender(q, r, u);
    RenderCons(p, [q, r, u]);
    assert [p, q, r, u] == [p] + [q, r, u];
    ConsRegroup(Render([p, q, r, u]), PieceText(p), PieceText(q), PieceText(r), PieceText(u));
  }

  lemma ConsRegroup(whole: string, a: string, b: string, c: string, d: string)
    requires whole == a + (b + c + d)
    ensures whole == a + b + c + d
  {
  }

  lemma InPrIsPlain()
    ensures Escape(" in PR ") == " in PR "
  {
    EscapePlain(" in PR ");
  }

  lemma ByIsPlain()
    ensures Escape(" by ") == " by "
  {
    EscapePlain(" by ");
  }

  /** The status message as the concatenation of its rendered parts. */
  lemma StatusMessageParts(t: MessageType, b: Run, cfg: Config)
    requires StatusMessage(t, b, cfg).Ok?
    ensures |SubjectPieces(b)| >= 2
    ensures PullRequestPieces(b).Ok?
    ensures StatusMessage(t, b, cfg).value ==
      ("Build " + Link(BuildUrl(cfg, b), "#" + b.id))
      + (" of " + Escape(Subject(b)) + Render(SubjectPieces(b)[2..]))
      + Render(PullRequestPieces(b).value)
      + Escape(" " + Verb(t) + " after " + b.durationText)
      + Render(TestPieces(cfg.includeTestSummary, b) + CustomBlock(cfg))
  {
    StatusMessageRenders(t, b, cfg);
    StatusPiecesRender(t, b, cfg, PullRequestPieces(b).value);
    BuildLinkRender(cfg, b);
    SubjectRender(b);
    VerbRender(t, b);
  }

  lemma StatusMessageRenders(t: MessageType, b: Run, cfg: Config)
    requires StatusMessage(t, b, cfg).Ok?
    ensures StatusMessage(t, b, cfg).value == Render(StatusPieces(t, b, cfg, PullRequestPieces(b).value))
  {
  }

  lemma StatusPiecesRender(t: MessageType, b: Run, cfg: Config, pr: seq<Piece>)
    ensures Render(StatusPieces(t, b, cfg, pr)) ==
      Render(BuildLinkPieces(cfg, b)) + Render(SubjectPieces(b)) + Render(pr) + Render(VerbPieces(t, b))
      + Render(TestPieces(cfg.includeTestSummary, b) + CustomBlock(cfg))
  {
    var rest := TestPieces(cfg.includeTestSummary, b) + CustomBlock(cfg);
    assert StatusPieces(t, b, cfg, pr) == BuildLinkPieces(cfg, b) + SubjectPieces(b) + pr + VerbPieces(t, b) + rest;
    RenderFive(BuildLinkPieces(cfg, b), SubjectPieces(b), pr, VerbPieces(t, b), rest);
  }

  /** The rendering of a concatenation of five groups of appends. */
  lemma RenderFive(a: seq<Piece>, sub: seq<Piece>, pr: seq<Piece>, vb: seq<Piece>, rest: seq<Piece>)
    ensures Render(a + sub + pr + vb + rest) == Render(a) + Render(sub) + Render(pr) + Render(vb) + Render(rest)
  {
    RenderAppend(a + sub + pr + vb, rest);
    RenderAppend(a + sub + pr, vb);
    RenderAppend(a + sub, pr);
    RenderAppend(a, sub);
  }

  /** Where the opening parts of a concatenated string sit. */
  lemma StringLayout(m: string, w: string, x: string, y: string, z: string, p: string, v: string, r: string)
    requires m == (w + x) + (y + z) + p + v + r
    ensures |w| <= |m| && m[..|w|] == w
    ensures Contains(m, x) && Contains(m, y)
  {
    assert m[..|w|] == w;
    assert OccursAt(m, |w|, x) by {
      assert m[|w|..|w| + |x|] == x;
    }
    assert OccursAt(m, |w + x|, y) by {
      assert m[|w + x|..|w + x| + |y|] == y;
    }
  }

  /** Where the closing parts of a concatenated string sit. */
  lemma StringLayoutEnd(m: string, head: string, v: string, r: string)
    requires m == head + v + r
    ensures Contains(m, v)
    ensures r == [] ==> |v| <= |m| && m[|m| - |v|..] == v
  {
    assert OccursAt(m, |head|, v) by {
      assert m[|head|..|head| + |v|] == v;
    }
  }

  /** Where the two middle parts of a concatenated string sit. */
  lemma StringLayoutMiddle(m: string, w: string, x: string, y: string, z: string, p: string, v: string, r: string)
    requires m == (w + x) + (y + z) + p + v + r
    ensures Contains(m, z) && Contains(m, p)
  {
    var k := |w + x| + |y|;
    assert OccursAt(m, k, z) by {
      assert m[k..k + |z|] == z;
    }
    assert OccursAt(m, k + |z|, p) by {
      assert m[k + |z|..k + |z| + |p|] == p;
    }
  }

  /** What the status message names after " of ": the branch or the project. */
  function Subject(b: Run): string {
    if SourceBranchKey in b.variables then b.variables[SourceBranchKey] else b.projectName
  }

  lemma BuildLinkRender(cfg: Config, b: Run)
    ensures Render(BuildLinkPieces(cfg, b)) == "Build " + Link(BuildUrl(cfg, b), "#" + b.id)
  {
    BuildWordRender(Link(BuildUrl(cfg, b), "#" + b.id));
  }

  lemma BuildWordRender(link: string)
    ensures Render([Appended("Build"), Appended(" "), Verbatim(link)]) == "Build " + link
  {
    ThreePiecesRender(Appended("Build"), Appended(" "), Verbatim(link));
    BuildIsPlain();
    EscapePlain(" ");
    assert "Build" + " " == "Build ";
  }

  lemma BuildIsPlain()
    ensures Escape("Build") == "Build"
  {
    EscapePlain("Build");
  }

  lemma ThreePiecesRender(p: Piece, q: Piece, r: Piece)
    ensures Render([p, q, r]) == PieceText(p) + PieceText(q) + PieceText(r)
  {
    RenderCons(r, []);
    RenderCons(q, [r]);
    RenderCons(p, [q, r]);
    assert [p, q, r] == [p] + [q, r] && [q, r] == [q] + [r] && [r] == [r] + [];
  }

  lemma SubjectRender(b: Run)
    ensures |SubjectPieces(b)| >= 2
    ensures Render(SubjectPieces(b)) == " of " + Escape(Subject(b)) + Render(SubjectPieces(b)[2..])
  {
    var sub := SubjectPieces(b);
    assert sub == [Appended(" of "), Appended(Subject(b))] + sub[2..];
    EscapePlain(" of ");
    RenderTwoAppends(" of ", Subject(b), sub[2..]);
  }

  lemma RenderTwoAppends(x: string, y: string, rest: seq<Piece>)
    ensures Render([Appended(x), Appended(y)] + rest) == Escape(x) + Escape(y) + Render(rest)
  {
    var ps := [Appended(x), Appended(y)] + rest;
    assert ps[1..][1..] == rest;
  }

  lemma VerbRender(t: MessageType, b: Run)
    ensures Render(VerbPieces(t, b)) == Escape(" " + Verb(t) + " after " + b.durationText)
  {
    var vb := VerbPieces(t, b);
    assert AllAppended(vb);
    RenderEscapedRun(vb);
    FourTexts(" ", Verb(t), " after ", b.durationText);
  }

  lemma FourTexts(p: string, q: string, u: string, w: string)
    ensures Texts([Appended(p), Appended(q), Appended(u), Appended(w)]) == p + q + u + w
  {
    var ps := [Appended(p), Appended(q), Appended(u), Appended(w)];
    assert ps[1..][1..][1..][1..] == [];
    assert Texts(ps[1..][1..][1..]) == w;
    assert Texts(ps[1..][1..]) == u + w;
    assert Texts(ps[1..]) == q + (u + w);
    assert q + (u + w) == q + u + w;
  }

  /** Predicate on the verbatim inputs: URLs, ids and custom text carry no `<` or `>`. */
  predicate MarkupFreeInputs(b: Run, cfg: Config) {
    && NoAngles(BuildUrl(cfg, b)) && NoAngles("#" + b.id)
    && NoAngles(GetOrNull(b.variables, PullLinkKey))
    && (PullIdKey in b.variables ==> NoAngles("#" + b.variables[PullIdKey]))
    && (cfg.includeCustomMessage ==> NoAngles(cfg.customMessage))
  }

  /** Names, branches, causes, authors and durations cannot inject markup: when
      the verbatim inputs are free of `<` and `>`, the status message holds
      exactly the build link, plus the pull-request link when there is one. */
  lemma StatusMessageLinks(t: MessageType, b: Run, cfg: Config)
    requires MarkupFreeInputs(b, cfg)
    requires StatusMessage(t, b, cfg).Ok?
    ensures Angles(StatusMessage(t, b, cfg).value) == if PullIdKey in b.variables then 4 else 2
  {
    var pr := PullRequestPieces(b).value;
    MarkupOnlyFromVerbatim(StatusPieces(t, b, cfg, pr));
    StatusPiecesAngles(t, b, cfg, pr);
    PullRequestAngles(b);
  }

  /** Of the status message's verbatim text, only the build link carries markup
      besides the pull-request part. */
  lemma StatusPiecesAngles(t: MessageType, b: Run, cfg: Config, pr: seq<Piece>)
    requires MarkupFreeInputs(b, cfg)
    ensures VerbatimAngles(StatusPieces(t, b, cfg, pr)) == 2 + VerbatimAngles(pr)
  {
    var a, sub, vb := BuildLinkPieces(cfg, b), SubjectPieces(b), VerbPieces(t, b);
    var tp, cb := TestPieces(cfg.includeTestSummary, b), CustomBlock(cfg);
    SixAngles(a, sub, pr, vb, tp, cb);
    BuildLinkAngles(cfg, b);
    SubjectAppended(b);
    NoVerbatimPieces(sub);
    NoVerbatimPieces(vb);
    TestPiecesAngles(cfg.includeTestSummary, b);
    CustomBlockAngles(cfg);
  }

  lemma SixAngles(a: seq<Piece>, sub: seq<Piece>, pr: seq<Piece>, vb: seq<Piece>, tp: seq<Piece>, cb: seq<Piece>)
    ensures VerbatimAngles(a + sub + pr + vb + tp + cb) ==
      VerbatimAngles(a) + VerbatimAngles(sub) + VerbatimAngles(pr) + VerbatimAngles(vb) + VerbatimAngles(tp) + VerbatimAngles(cb)
  {
    VerbatimAnglesAppend(a + sub + pr + vb + tp, cb);
    VerbatimAnglesAppend(a + sub + pr + vb, tp);
    VerbatimAnglesAppend(a + sub + pr, vb);
    VerbatimAnglesAppend(a + sub, pr);
    VerbatimAnglesAppend(a, sub);
  }

  lemma BuildLinkAngles(cfg: Config, b: Run)
    requires NoAngles(BuildUrl(cfg, b)) && NoAngles("#" + b.id)
    ensures VerbatimAngles(BuildLinkPieces(cfg, b)) == 2
  {
    var a := BuildLinkPieces(cfg, b);
    LinkAngles(BuildUrl(cfg, b), "#" + b.id);
    assert VerbatimAngles(a[2..]) == 2 + VerbatimAngles(a[3..]);
    assert VerbatimAngles(a[1..]) == VerbatimAngles(a[2..]);
  }

  lemma TestPiecesAngles(shown: bool, b: Run)
    ensures VerbatimAngles(TestPieces(shown, b)) == 0
  {
    if shown {
      TestSummaryIsPlain(b.tests);
      NoAnglesCount(TestSummary(b.tests));
      assert TestPieces(shown, b)[1..] == [];
    }
  }

  lemma CustomBlockAngles(cfg: Config)
    requires cfg.includeCustomMessage ==> NoAngles(cfg.customMessage)
    ensures VerbatimAngles(CustomBlock(cfg)) == 0
  {
    if cfg.includeCustomMessage {
      var cb := CustomBlock(cfg);
      NoAnglesCount(cfg.customMessage);
      assert Angles("\n") == 0;
      assert VerbatimAngles(cb[1..]) == Angles(cfg.customMessage) + VerbatimAngles(cb[2..]);
    }
  }

  lemma PullRequestAngles(b: Run)
    requires PullRequestPieces(b).Ok?
    requires NoAngles(GetOrNull(b.variables, PullLinkKey))
    requires PullIdKey in b.variables ==> NoAngles("#" + b.variables[PullIdKey])
    ensures VerbatimAngles(PullRequestPieces(b).value) == if PullIdKey in b.variables then 2 else 0
  {
    var pr := PullRequestPieces(b).value;
    if PullIdKey in b.variables {
      LinkAngles(GetOrNull(b.variables, PullLinkKey), "#" + b.variables[PullIdKey]);
      assert VerbatimAngles(pr[3..]) == VerbatimAngles(pr[4..]);
      assert VerbatimAngles(pr[2..]) == VerbatimAngles(pr[3..]);
      assert VerbatimAngles(pr[1..]) == 2 + VerbatimAngles(pr[2..]);
    }
  }

  predicate AllAppended(ps: seq<Piece>) {
    forall i :: 0 <= i < |ps| ==> ps[i].Appended?
  }

  lemma {:induction false} NoVerbatimPieces(ps: seq<Piece>)
    requires AllAppended(ps)
    ensures VerbatimAngles(ps) == 0
  {
    if |ps| > 0 {
      NoVerbatimPieces(ps[1..]);
    }
  }

  lemma {:induction false} CausePiecesAppended(causes: seq<string>, needsComma: bool)
    ensures AllAppended(CausePieces(causes, needsComma))
  {
    if |causes| > 0 {
      CausePiecesAppended(causes[1..], needsComma);
      CausePiecesAppended(causes[1..], true);
    }
  }

  lemma SubjectAppended(b: Run)
    ensures AllAppended(SubjectPieces(b))
  {
    CausePiecesAppended(b.causes, false);
  }

  lemma HeaderAngles(b: Run)
    ensures VerbatimAngles(Header(b)) == 0
  {
    var hd := Header(b);
    assert Angles(" - ") == 0 && Angles(" ") == 0;
    assert VerbatimAngles(hd[3..]) == VerbatimAngles(hd[4..]);
    assert VerbatimAngles(hd[1..]) == VerbatimAngles(hd[3..]);
  }

  // ---------------------------------------------------------------------------
  // Start messages

  /** A start message announcing the build's trigger cause. */
  function CauseStartMessage(cfg: Config, b: Run, description: string): (r: string)
    ensures r == HeaderText(b) + Escape(description) + OpenLinkText(cfg, b)
    ensures StartsWith(r, HeaderText(b))
    ensures Contains(r, Escape(description))
    ensures Contains(r, OpenLinkText(cfg, b))
  {
    CauseStartRender(b, description, OpenLink(cfg, b));
    WholeParts(Render(Header(b) + [Appended(description), OpenLink(cfg, b)]), HeaderText(b), Escape(description), OpenLinkText(cfg, b));
    Render(Header(b) + [Appended(description), OpenLink(cfg, b)])
  }

  lemma CauseStartRender(b: Run, description: string, link: Piece)
    ensures Render(Header(b) + [Appended(description), link]) == HeaderText(b) + Escape(description) + PieceText(link)
  {
    RenderAppend(Header(b), [Appended(description), link]);
    HeaderRender(b);
    RenderCons(Appended(description), [link]);
    RenderSingle(link);
    assert [Appended(description), link] == [Appended(description)] + [link];
  }

  /** `getChanges` rendered: authors joined in the host's iteration order. The
      message names the escaped authors and the number of changed files. */
  function ChangesMessage(cfg: Config, b: Run, summary: ChangeSummary, authorOrder: seq<string>): (r: string)
    requires IsEnumeration(authorOrder, summary.authors)
    ensures Contains(r, "Started by changes from " + Escape(Join(authorOrder, ", "))
                        + " (" + IntToDecimal(summary.fileCount) + " file(s) changed)")
    ensures StartsWith(r, HeaderText(b) + ("Started by changes from " + Escape(Join(authorOrder, ", "))
                          + " (" + IntToDecimal(summary.fileCount) + " file(s) changed)") + OpenLinkText(cfg, b))
    ensures StartsWith(r, HeaderText(b))
    ensures Contains(r, OpenLinkText(cfg, b))
  {
    DecimalIsPlain(summary.fileCount);
    ChangesLayout(cfg, b, Join(authorOrder, ", "), IntToDecimal(summary.fileCount));
    Render(Header(b) + ChangeWords(Join(authorOrder, ", "), IntToDecimal(summary.fileCount)) + [OpenLink(cfg, b)] + CustomBlock(cfg))
  }

  lemma ChangesLayout(cfg: Config, b: Run, authors: string, count: string)
    requires Plain(count)
    ensures var r := Render(Header(b) + ChangeWords(authors, count) + [OpenLink(cfg, b)] + CustomBlock(cfg));
            var w := "Started by changes from " + Escape(authors) + " (" + count + " file(s) changed)";
            Contains(r, w) && StartsWith(r, HeaderText(b) + w + OpenLinkText(cfg, b)) &&
            StartsWith(r, HeaderText(b)) && Contains(r, OpenLinkText(cfg, b))
  {
    ChangeWordsRender(authors, count);
    MessageLayout(b, ChangeWords(authors, count), OpenLink(cfg, b), CustomBlock(cfg),
                  "Started by changes from " + Escape(authors) + " (" + count + " file(s) changed)");
  }

  /** A message made of the header, some appends, a link and further appends
      begins with the header, those appends and the link, in that order. */
  lemma MessageLayout(b: Run, mid: seq<Piece>, link: Piece, rest: seq<Piece>, text: string)
    requires Render(mid) == text
    ensures var r := Render(Header(b) + mid + [link] + rest);
            StartsWith(r, HeaderText(b) + text + PieceText(link)) && StartsWith(r, HeaderText(b)) &&
            Contains(r, text) && Contains(r, PieceText(link))
  {
    LeadingPieces(b, mid, link, rest);
    PrefixParts(Render(Header(b) + mid + [link] + rest), HeaderText(b), text, PieceText(link));
  }

  lemma WholeParts(r: string, a: string, x: string, y: string)
    requires r == a + x + y
    ensures StartsWith(r, a) && Contains(r, x) && Contains(r, y)
  {
    PrefixParts(r, a, x, y);
  }

  /** The parts of a string's prefix occur in it. */
  lemma PrefixParts(r: string, a: string, x: string, y: string)
    requires StartsWith(r, a + x + y)
    ensures StartsWith(r, a) && Contains(r, x) && Contains(r, y)
  {
    assert r[..|a|] == (a + x + y)[..|a|] == a;
    assert OccursAt(r, |a|, x) by {
      assert r[|a|..|a| + |x|] == (a + x + y)[|a|..|a| + |x|] == x;
    }
    assert OccursAt(r, |a| + |x|, y) by {
      assert r[|a| + |x|..|a| + |x| + |y|] == (a + x + y)[|a| + |x|..|a| + |x| + |y|] == y;
    }
  }

  /** The header, some appends and a link render, in that order, at the start of
      the message. */
  lemma LeadingPieces(b: Run, mid: seq<Piece>, link: Piece, rest: seq<Piece>)
    ensures StartsWith(Render(Header(b) + mid + [link] + rest), HeaderText(b) + Render(mid) + PieceText(link))
  {
    var lead := Header(b) + mid + [link];
    RenderAppend(lead, rest);
    RenderAppend(Header(b) + mid, [link]);
    RenderAppend(Header(b), mid);
    HeaderRender(b);
    RenderSingle(link);
    PrefixOfAppend(Render(lead), Render(rest));
  }

  /** The appends of the change summary. */
  function ChangeWords(authors: string, count: string): seq<Piece> {
    [Appended("Started by changes from "), Appended(authors),
     Appended(" ("), Appended(count), Appended(" file(s) changed)")]
  }

  lemma ChangeWordsRender(authors: string, count: string)
    requires Plain(count)
    ensures Render(ChangeWords(authors, count)) ==
      "Started by changes from " + Escape(authors) + " (" + count + " file(s) changed)"
  {
    var p, q, r := "Started by changes from ", " (", " file(s) changed)";
    FiveAppendsRender(p, authors, q, count, r);
    StartedByIsPlain();
    OpenParenIsPlain();
    FilesChangedIsPlain();
    EscapePlain(count);
    assert Render(ChangeWords(authors, count)) == Escape(p) + Escape(authors) + Escape(q) + Escape(count) + Escape(r);
  }

  lemma StartedByIsPlain()
    ensures Escape("Started by changes from ") == "Started by changes from "
  {
    EscapePlain("Started by changes from ");
  }

  lemma OpenParenIsPlain()
    ensures Escape(" (") == " ("
  {
    EscapePlain(" (");
  }

  lemma FilesChangedIsPlain()
    ensures Escape(" file(s) changed)") == " file(s) changed)"
  {
    EscapePlain(" file(s) changed)");
  }

  lemma FiveAppendsRender(a: string, b: string, c: string, d: string, e: string)
    ensures Render([Appended(a), Appended(b), Appended(c), Appended(d), Appended(e)]) ==
      Escape(a) + Escape(b) + Escape(c) + Escape(d) + Escape(e)
  {
    var four := [Appended(b), Appended(c), Appended(d), Appended(e)];
    FourPiecesRender(Appended(b), Appended(c), Appended(d), Appended(e));
    RenderCons(Appended(a), four);
    assert [Appended(a), Appended(b), Appended(c), Appended(d), Appended(e)] == [Appended(a)] + four;
    FiveRegroup(Escape(a), Escape(b), Escape(c), Escape(d), Escape(e));
  }

  lemma FiveRegroup(a: string, b: string, c: string, d: string, e: string)
    ensures a + (b + c + d + e) == a + b + c + d + e
  {
  }

  lemma RenderCons(p: Piece, rest: seq<Piece>)
    ensures Render([p] + rest) == PieceText(p) + Render(rest)
  {
    assert ([p] + rest)[1..] == rest;
  }

  /** When a build stopped running: its start time plus its duration. */
  function EndMillis(b: Run): int {
    b.startMillis + b.durationMillis
  }

  /** How long the project was broken: from the end of the newest earlier
      successful build to the end of the build at `pos`, in milliseconds. */
  function BackToNormalSpan(h: seq<Run>, pos: nat): (r: int)
    requires pos < |h|
    requires PreviousSuccessful(h, pos).Some?
    ensures exists k :: 0 <= k < pos && IsSuccess(h[k]) && (forall j :: k < j < pos ==> !IsSuccess(h[j]))
                        && r == EndMillis(h[pos]) - EndMillis(h[k])
  {
    var k := PreviousSuccessful(h, pos).value;
    assert IsSuccess(h[k]) && forall j :: k < j < pos ==> !IsSuccess(h[j]);
    EndMillis(h[pos]) - EndMillis(h[k])
  }

  /** Status word and " after " of a start-style message. */
  function StatusPrefix(h: seq<Run>, pos: nat): seq<Piece>
    requires pos < |h|
  {
    Header(h[pos]) + [Appended(StatusWord(h, pos)), Verbatim(" after ")]
  }

  /** The test `appendDuration` makes: "Back to normal" occurs in the message
      built so far. */
  predicate MentionsBackToNormal(h: seq<Run>, pos: nat)
    requires pos < |h|
  {
    Contains(Render(StatusPrefix(h, pos)), BackToNormal)
  }

  /** `appendDuration` as written: it looks for "Back to normal" anywhere in the
      message built so far, project and build names included, and then reads the
      previous successful build without checking that there is one. */
  function DurationAsWritten(h: seq<Run>, pos: nat, timeSpan: int -> string): (r: Result<string, Fault>)
    requires pos < |h|
    ensures r.Err? <==> MentionsBackToNormal(h, pos) && forall k :: 0 <= k < pos ==> !IsSuccess(h[k])
    ensures !MentionsBackToNormal(h, pos) ==> r == Ok(h[pos].durationText)
    ensures MentionsBackToNormal(h, pos) && PreviousSuccessful(h, pos).Some? ==>
              r == Ok(timeSpan(BackToNormalSpan(h, pos)))
  {
    NoEarlierSuccess(h, pos);
    if MentionsBackToNormal(h, pos) then
      match PreviousSuccessful(h, pos)
      case None => Err(MissingPreviousSuccess)
      case Some(_) => Ok(timeSpan(BackToNormalSpan(h, pos)))
    else Ok(h[pos].durationText)
  }

  /** The duration as intended: the broken-for span exactly when the status word
      is "Back to normal", which guarantees an earlier successful build. */
  function Duration(h: seq<Run>, pos: nat, timeSpan: int -> string): (r: string)
    requires pos < |h|
    ensures StatusWord(h, pos) == BackToNormal ==>
              PreviousSuccessful(h, pos).Some? && r == timeSpan(BackToNormalSpan(h, pos))
    ensures StatusWord(h, pos) != BackToNormal ==> r == h[pos].durationText
  {
    if StatusWord(h, pos) == BackToNormal then
      BackToNormalWord(h, pos);
      NoEarlierSuccess(h, pos);
      timeSpan(BackToNormalSpan(h, pos))
    else h[pos].durationText
  }

  lemma NoEarlierSuccess(h: seq<Run>, pos: nat)
    requires pos < |h|
    ensures PreviousSuccessful(h, pos).None? <==> forall k :: 0 <= k < pos ==> !IsSuccess(h[k])
  {
  }

  /** A "Back to normal" status word is itself in the message, so the written
      test never misses it: the two checks differ only when a name mentions it. */
  lemma StatusWordMentioned(h: seq<Run>, pos: nat)
    requires pos < |h|
    ensures StatusWord(h, pos) == BackToNormal ==> MentionsBackToNormal(h, pos)
  {
    if StatusWord(h, pos) == BackToNormal {
      var ps := StatusPrefix(h, pos);
      assert ps[4] == Appended(BackToNormal);
      BackToNormalIsPlain();
      AppendedOccurs(ps, 4, BackToNormal);
    }
  }

  /** `getStartedMessage` as written. It fails exactly when the written check
      fires without an earlier successful build, and it agrees with the intended
      message whenever "Back to normal" does not occur in the prefix. */
  function StartedMessageAsWritten(h: seq<Run>, pos: nat, cfg: Config, tests: bool, timeSpan: int -> string): (r: Result<string, Fault>)
    requires pos < |h|
    ensures r.Err? <==> MentionsBackToNormal(h, pos) && forall k :: 0 <= k < pos ==> !IsSuccess(h[k])
    ensures !MentionsBackToNormal(h, pos) ==> r == Ok(StartedMessage(h, pos, cfg, tests, timeSpan))
  {
    StatusWordMentioned(h, pos);
    match DurationAsWritten(h, pos, timeSpan)
    case Err(e) => Err(e)
    case Ok(d) =>
      Ok(Render(StatusPrefix(h, pos) + [Verbatim(d), OpenLink(cfg, h[pos])] + TestPieces(tests, h[pos]) + CustomBlock(cfg)))
  }

  /** `getStartedMessage` with the duration chosen by the status word. */
  function StartedMessage(h: seq<Run>, pos: nat, cfg: Config, tests: bool, timeSpan: int -> string): (r: string)
    requires pos < |h|
    ensures Contains(r, Escape(StatusWord(h, pos)) + " after " + Duration(h, pos, timeSpan))
    ensures StartsWith(r, HeaderText(h[pos]) + (Escape(StatusWord(h, pos)) + " after " + Duration(h, pos, timeSpan))
                          + OpenLinkText(cfg, h[pos]))
    ensures StartsWith(r, HeaderText(h[pos]))
    ensures Contains(r, OpenLinkText(cfg, h[pos]))
  {
    var d := Duration(h, pos, timeSpan);
    StartedLayout(h[pos], StatusWord(h, pos), d, OpenLink(cfg, h[pos]), TestPieces(tests, h[pos]), CustomBlock(cfg));
    Render(StatusPrefix(h, pos) + [Verbatim(d), OpenLink(cfg, h[pos])] + TestPieces(tests, h[pos]) + CustomBlock(cfg))
  }

  lemma StartedLayout(b: Run, word: string, d: string, link: Piece, tests: seq<Piece>, custom: seq<Piece>)
    ensures var r := Render(Header(b) + [Appended(word), Verbatim(" after ")] + [Verbatim(d), link] + tests + custom);
            Contains(r, Escape(word) + " after " + d) && StartsWith(r, HeaderText(b) + (Escape(word) + " after " + d) + PieceText(link)) &&
            StartsWith(r, HeaderText(b)) && Contains(r, PieceText(link))
  {
    var mid := [Appended(word), Verbatim(" after "), Verbatim(d)];
    var rest := tests + custom;
    assert Header(b) + [Appended(word), Verbatim(" after ")] + [Verbatim(d), link] + tests + custom == Header(b) + mid + [link] + rest;
    ThreePiecesRender(Appended(word), Verbatim(" after "), Verbatim(d));
    MessageLayout(b, mid, link, rest, Escape(word) + " after " + d);
  }

  /** A running build of a project whose name contains "Back to normal" and that
      never succeeded: the status word is "Starting...", yet the written check
      takes the back-to-normal path and dereferences the missing previous
      successful build. The status-word check uses the build's own duration. */
  lemma BackToNormalInNameMisfires(b: Run, cfg: Config, tests: bool, timeSpan: int -> string)
    requires b.projectName == BackToNormal && b.building
    ensures StatusWord([b], 0) == Starting
    ensures StartedMessageAsWritten([b], 0, cfg, tests, timeSpan) == Err(MissingPreviousSuccess)
    ensures Duration([b], 0, timeSpan) == b.durationText
  {
    var h := [b];
    assert StatusWord(h, 0) == Starting;
    assert |Starting| != |BackToNormal|;
    assert PreviousSuccessful(h, 0) == None;
    NameInStatusPrefix(h, 0);
  }

  /** The same project once it has succeeded before: the written check
      publishes the time since the newest earlier success ended, instead of the
      running build's own duration. */
  lemma BackToNormalInNameUsesSpan(h: seq<Run>, pos: nat, timeSpan: int -> string)
    requires pos < |h| && h[pos].projectName == BackToNormal && h[pos].building
    requires exists k :: 0 <= k < pos && IsSuccess(h[k])
    ensures StatusWord(h, pos) == Starting
    ensures PreviousSuccessful(h, pos).Some? && DurationAsWritten(h, pos, timeSpan) == Ok(timeSpan(BackToNormalSpan(h, pos)))
    ensures Duration(h, pos, timeSpan) == h[pos].durationText
  {
    NoEarlierSuccess(h, pos);
    assert StatusWord(h, pos) != BackToNormal by {
      assert |Starting| != |BackToNormal|;
    }
    NameInStatusPrefix(h, pos);
  }

  /** The rendered start prefix contains the project name whenever that name
      needs no escaping. */
  lemma NameInStatusPrefix(h: seq<Run>, pos: nat)
    requires pos < |h|
    requires h[pos].projectName == BackToNormal
    ensures MentionsBackToNormal(h, pos)
  {
    var ps := StatusPrefix(h, pos);
    assert ps[0] == Appended(BackToNormal);
    BackToNormalIsPlain();
    AppendedOccurs(ps, 0, BackToNormal);
  }

  lemma BackToNormalIsPlain()
    ensures Plain(BackToNormal)
  {
  }

  lemma RenderSingle(p: Piece)
    ensures Render([p]) == PieceText(p)
  {
    assert [p][1..] == [];
  }

  lemma AppendedOccurs(ps: seq<Piece>, i: nat, text: string)
    requires i < |ps| && ps[i] == Appended(text) && Plain(text)
    ensures Contains(Render(ps), text)
  {
    EscapePlain(text);
    RenderSlice(ps, i, i + 1);
    assert Render(ps[i..i + 1]) == text by {
      assert ps[i..i + 1] == [Appended(text)];
      assert ps[i..i + 1][1..] == [];
    }
    assert OccursAt(Render(ps), |Render(ps[..i])|, text);
  }

  // ---------------------------------------------------------------------------
  // Commit list

  /** `getCommitList` rendered: lines joined in the host's iteration order. */
  function CommitListText(l: CommitListing, order: seq<string>): (r: string)
    requires l.Listing? ==> IsEnumeration(order, l.lines)
    ensures l.NoChanges? ==> r == "No Changes."
    ensures l.Listing? ==> var lines := "Changes:\n- " + Escape(Join(order, "\n- "));
              |lines| <= |r| && r[|r| - |lines|..] == lines
    ensures l.Listing? ==> r == HeaderText(l.source) + "Changes:\n- " + Escape(Join(order, "\n- "))
    ensures NoAngles(r)
  {
    match l
    case NoChanges => "No Changes."
    case Listing(src, _) =>
      CommitListAngles(src, Join(order, "\n- "));
      CommitListLayout(src, Join(order, "\n- "));
      Render(Header(src) + [Appended("Changes:\n- "), Appended(Join(order, "\n- "))])
  }

  lemma CommitListAngles(src: Run, joined: string)
    ensures NoAngles(Render(Header(src) + [Appended("Changes:\n- "), Appended(joined)]))
  {
    var tail: seq<Piece> := [Appended("Changes:\n- "), Appended(joined)];
    var ps := Header(src) + tail;
    MarkupOnlyFromVerbatim(ps);
    VerbatimAnglesAppend(Header(src), tail);
    HeaderAngles(src);
    NoVerbatimPieces(tail);
    NoAnglesCount(Render(ps));
  }

  lemma CommitListLayout(src: Run, joined: string)
    ensures var r := Render(Header(src) + [Appended("Changes:\n- "), Appended(joined)]);
            r == HeaderText(src) + "Changes:\n- " + Escape(joined) &&
            |"Changes:\n- " + Escape(joined)| <= |r| && r[|r| - |"Changes:\n- " + Escape(joined)|..] == "Changes:\n- " + Escape(joined)
  {
    RenderAppend(Header(src), [Appended("Changes:\n- "), Appended(joined)]);
    HeaderRender(src);
    CommitTailRender(joined);
    SuffixRegroup(HeaderText(src), "Changes:\n- ", Escape(joined));
  }

  lemma SuffixRegroup(a: string, c: string, e: string)
    ensures a + (c + e) == a + c + e
    ensures |c + e| <= |a + c + e| && (a + c + e)[|a + c + e| - |c + e|..] == c + e
  {
    SuffixOfAppend(a, c + e);
  }

  lemma CommitTailRender(joined: string)
    ensures Render([Appended("Changes:\n- "), Appended(joined)]) == "Changes:\n- " + Escape(joined)
  {
    RenderTwoAppends("Changes:\n- ", joined, []);
    assert [Appended("Changes:\n- "), Appended(joined)] + [] == [Appended("Changes:\n- "), Appended(joined)];
    ChangesWordIsPlain();
  }

  lemma ChangesWordIsPlain()
    ensures Escape("Changes:\n- ") == "Changes:\n- "
  {
    EscapePlain("Changes:\n- ");
  }

  lemma SuffixOfAppend(a: string, t: string)
    ensures |t| <= |a + t| && (a + t)[|a + t| - |t|..] == t
  {
  }
}

=== FILE: notifier.dfy ===
/** The dispatcher: which messages a lifecycle event publishes, with which colour.
    Publishing itself belongs to the notification sink; here an event yields the
    list of (text, colour) pairs handed to it, in order. */
module Notifier {
  import opened Basics
  import opened Text
  import opened Escaping
  import opened Builds
  import opened Classifier
  import opened Changes
  import opened Messages

  datatype Publish = Publish(text: string, color: string)

  /** The colour of a start message: that of the last build's previous completed
      build, or "good" when there is none. */
  function StartColor(h: seq<Run>): (c: string)
    requires |h| > 0
    ensures c == "good" || c == "danger" || c == "warning"
    ensures c == "good" <==> PreviousCompleted(h, |h| - 1).None? || IsSuccess(h[PreviousCompleted(h, |h| - 1).value])
    ensures c == "danger" <==> PreviousCompleted(h, |h| - 1).Some? && h[PreviousCompleted(h, |h| - 1).value].result == Some(Failure)
  {
    match PreviousCompleted(h, |h| - 1)
    case None => "good"
    case Some(j) => BuildColor(h[j].result)
  }

  /** True if the build has a cause action without an SCM-poll cause. */
  predicate HasNonScmCause(b: Run) {
    b.causeAction.Some? && !b.causeAction.value.hasScmCause
  }

  /** The text of the start notification (`started`): the cause's description
      for a non-SCM cause, else the change summary, else the status word and
      the duration. */
  function StartText(h: seq<Run>, pos: nat, cfg: Config, authorOrder: seq<string>, timeSpan: int -> string): (r: string)
    requires pos < |h|
    requires !HasNonScmCause(h[pos]) && Summarize(h[pos]).Some? ==> IsEnumeration(authorOrder, Summarize(h[pos]).value.authors)
    ensures HasNonScmCause(h[pos]) ==> Contains(r, Escape(h[pos].causeAction.value.shortDescription))
    ensures !HasNonScmCause(h[pos]) && Summarize(h[pos]).Some? ==>
              Contains(r, "Started by changes from " + Escape(Join(authorOrder, ", ")) + " ("
                          + IntToDecimal(Summarize(h[pos]).value.fileCount) + " file(s) changed)")
    ensures !HasNonScmCause(h[pos]) && Summarize(h[pos]).None? ==>
              Contains(r, Escape(StatusWord(h, pos)) + " after " + Duration(h, pos, timeSpan))
    ensures StartsWith(r, HeaderText(h[pos]))
    ensures Contains(r, OpenLinkText(cfg, h[pos]))
  {
    var b := h[pos];
    if HasNonScmCause(b) then CauseStartMessage(cfg, b, b.causeAction.value.shortDescription)
    else match Summarize(b)
      case Some(summary) => ChangesMessage(cfg, b, summary, authorOrder)
      case None => StartedMessage(h, pos, cfg, false, timeSpan)
  }

  /** `started`: exactly one notification per started build, coloured after the
      previous completed build. */
  function Started(h: seq<Run>, pos: nat, cfg: Config, authorOrder: seq<string>, timeSpan: int -> string): (p: Publish)
    requires pos < |h|
    requires !HasNonScmCause(h[pos]) && Summarize(h[pos]).Some? ==> IsEnumeration(authorOrder, Summarize(h[pos]).value.authors)
    ensures p.color == "good" || p.color == "danger" || p.color == "warning"
    ensures p.color == "good" <==> PreviousCompleted(h, |h| - 1).None? || IsSuccess(h[PreviousCompleted(h, |h| - 1).value])
    ensures p.color == "danger" <==> PreviousCompleted(h, |h| - 1).Some? && h[PreviousCompleted(h, |h| - 1).value].result == Some(Failure)
    ensures p.text == StartText(h, pos, cfg, authorOrder, timeSpan)
  {
    Publish(StartText(h, pos, cfg, authorOrder, timeSpan), StartColor(h))
  }

  /** A build started by a non-SCM cause announces the cause, whatever its change set. */
  lemma CauseStartIgnoresChanges(h: seq<Run>, pos: nat, cfg: Config, authorOrder: seq<string>, timeSpan: int -> string, changes: seq<Entry>)
    requires pos < |h|
    requires HasNonScmCause(h[pos])
    ensures var h' := h[pos := h[pos].(changes := changes, changeSetComputed := true)];
      StartText(h', pos, cfg, authorOrder, timeSpan) == StartText(h, pos, cfg, authorOrder, timeSpan)
    ensures Contains(StartText(h, pos, cfg, authorOrder, timeSpan), Escape(h[pos].causeAction.value.shortDescription))
  {
  }

  /** The start text as the code computes it: the duration step takes the
      back-to-normal path whenever "Back to normal" occurs in the message so far,
      and fails on a null previous successful build. It agrees with `StartText`
      unless that phrase occurs. */
  function StartTextAsWritten(h: seq<Run>, pos: nat, cfg: Config, authorOrder: seq<string>, timeSpan: int -> string): (r: Result<string, Fault>)
    requires pos < |h|
    requires !HasNonScmCause(h[pos]) && Summarize(h[pos]).Some? ==> IsEnumeration(authorOrder, Summarize(h[pos]).value.authors)
    ensures r.Err? <==> !HasNonScmCause(h[pos]) && Summarize(h[pos]).None?
                        && MentionsBackToNormal(h, pos) && forall k :: 0 <= k < pos ==> !IsSuccess(h[k])
    ensures !MentionsBackToNormal(h, pos) ==> r == Ok(StartText(h, pos, cfg, authorOrder, timeSpan))
  {
    var b := h[pos];
    if HasNonScmCause(b) then Ok(CauseStartMessage(cfg, b, b.causeAction.value.shortDescription))
    else match Summarize(b)
      case Some(summary) => Ok(ChangesMessage(cfg, b, summary, authorOrder))
      case None => StartedMessageAsWritten(h, pos, cfg, false, timeSpan)
  }

  /** `started` as the code behaves: no notification when the start text fails,
      otherwise one, coloured as `Started` colours it. */
  function StartedAsWritten(h: seq<Run>, pos: nat, cfg: Config, authorOrder: seq<string>, timeSpan: int -> string): (r: Result<Publish, Fault>)
    requires pos < |h|
    requires !HasNonScmCause(h[pos]) && Summarize(h[pos]).Some? ==> IsEnumeration(authorOrder, Summarize(h[pos]).value.authors)
    ensures r.Err? <==> !HasNonScmCause(h[pos]) && Summarize(h[pos]).None?
                        && MentionsBackToNormal(h, pos) && forall k :: 0 <= k < pos ==> !IsSuccess(h[k])
    ensures r.Ok? ==> r.value.color == Started(h, pos, cfg, authorOrder, timeSpan).color
    ensures !MentionsBackToNormal(h, pos) ==> r == Ok(Started(h, pos, cfg, authorOrder, timeSpan))
  {
    match StartTextAsWritten(h, pos, cfg, authorOrder, timeSpan)
    case Err(e) => Err(e)
    case Ok(text) => Ok(Publish(text, StartColor(h)))
  }

  /** The classification of the build at `pos` on completion. */
  function CompletedType(h: seq<Run>, pos: nat, cfg: Config): MessageType
    requires pos < |h|
  {
    GetMessageType(h[pos].result, EffectivePrevious(h), cfg.prefs)
  }

  /** The messages of one completion: the status text and, when commit
      information is shown, the commit list, all in one colour. */
  function Publications(status: string, color: string, showCommits: bool, commitList: string): (r: seq<Publish>)
    ensures |r| == if showCommits then 2 else 1
    ensures forall i :: 0 <= i < |r| ==> r[i].color == color
    ensures r[0].text == status
    ensures |r| == 2 ==> r[1].text == commitList
  {
    if showCommits then [Publish(status, color), Publish(commitList, color)]
    else [Publish(status, color)]
  }

  /** `completed`: nothing for NO_MESSAGE; otherwise the status message and, when
      commit information is shown, the commit list, both in the build's colour.
      The only failure is the null commit author of a pull-request build. */
  function Completed(h: seq<Run>, pos: nat, cfg: Config, commitOrder: seq<string>): (r: Result<seq<Publish>, Fault>)
    requires pos < |h|
    requires ListCommits(h[pos], cfg.commitInfo).Listing? ==> IsEnumeration(commitOrder, ListCommits(h[pos], cfg.commitInfo).lines)
    ensures CompletedType(h, pos, cfg) == NoMessage ==> r == Ok([])
    ensures r.Err? <==> CompletedType(h, pos, cfg) != NoMessage && PullIdKey in h[pos].variables && CommitAuthorKey !in h[pos].variables
    ensures r.Ok? && CompletedType(h, pos, cfg) != NoMessage ==> |r.value| == if cfg.commitInfo.ShowAnything() then 2 else 1
    ensures r.Ok? ==> forall i :: 0 <= i < |r.value| ==> r.value[i].color == BuildColor(h[pos].result)
    ensures r.Ok? && |r.value| > 0 ==> r.value[0].text == StatusMessage(CompletedType(h, pos, cfg), h[pos], cfg).value
    ensures r.Ok? && |r.value| == 2 ==> r.value[1].text == CommitListText(ListCommits(h[pos], cfg.commitInfo), commitOrder)
  {
    var b := h[pos];
    var t := CompletedType(h, pos, cfg);
    if t == NoMessage then Ok([])
    else
      var status := StatusMessage(t, b, cfg);
      if status.Err? then Err(status.error)
      else Ok(Publications(status.value, BuildColor(b.result), cfg.commitInfo.ShowAnything(),
                           CommitListText(ListCommits(b, cfg.commitInfo), commitOrder)))
  }

  /** Scenario: a failure after a failure with both failure flags set is sent as
      a repeated failure, with the verb "failed" and colour "danger". */
  lemma RepeatedFailureScenario(h: seq<Run>, pos: nat, cfg: Config)
    requires pos < |h|
    requires h[pos].result == Some(Failure) && EffectivePrevious(h) == Some(Failure)
    requires cfg.prefs.notifyFailure && cfg.prefs.notifyRepeatedFailure
    ensures CompletedType(h, pos, cfg) == RepeatedFailureMessage
    ensures Verb(RepeatedFailureMessage) == "failed"
    ensures BuildColor(h[pos].result) == "danger"
  {
  }

  /** Names, cause descriptions, authors and status words cannot inject markup
      into a start message: when the build URL, the durations and the custom text
      are free of `<` and `>`, the message holds exactly its "Open" link. */
  lemma StartMessageLinks(h: seq<Run>, pos: nat, cfg: Config, authorOrder: seq<string>, timeSpan: int -> string)
    requires pos < |h|
    requires !HasNonScmCause(h[pos]) && Summarize(h[pos]).Some? ==> IsEnumeration(authorOrder, Summarize(h[pos]).value.authors)
    requires NoAngles(BuildUrl(cfg, h[pos]))
    requires HasNonScmCause(h[pos]) || Summarize(h[pos]).Some? || NoAngles(h[pos].durationText)
    requires HasNonScmCause(h[pos]) || Summarize(h[pos]).Some? || forall n :: NoAngles(timeSpan(n))
    requires cfg.includeCustomMessage ==> NoAngles(cfg.customMessage)
    ensures Angles(StartText(h, pos, cfg, authorOrder, timeSpan)) == 2
  {
    var b := h[pos];
    if HasNonScmCause(b) {
      CauseStartLinks(cfg, b, b.causeAction.value.shortDescription);
    } else if Summarize(b).Some? {
      ChangesStartLinks(cfg, b, Summarize(b).value, authorOrder);
    } else {
      StartedMessageLinks(h, pos, cfg, timeSpan);
    }
  }

  lemma CauseStartLinks(cfg: Config, b: Run, description: string)
    requires NoAngles(BuildUrl(cfg, b))
    ensures Angles(CauseStartMessage(cfg, b, description)) == 2
  {
    var link := [OpenLink(cfg, b)];
    OpenLinkAngles(cfg, b);
    HeaderAngles(b);
    var ps := Header(b) + ([Appended(description)] + link);
    assert ps == Header(b) + [Appended(description), OpenLink(cfg, b)];
    MarkupOnlyFromVerbatim(ps);
    VerbatimAnglesAppend(Header(b), [Appended(description)] + link);
    VerbatimAnglesAppend([Appended(description)], link);
  }

  lemma ChangesStartLinks(cfg: Config, b: Run, sm: ChangeSummary, authorOrder: seq<string>)
    requires IsEnumeration(authorOrder, sm.authors)
    requires NoAngles(BuildUrl(cfg, b))
    requires cfg.includeCustomMessage ==> NoAngles(cfg.customMessage)
    ensures Angles(ChangesMessage(cfg, b, sm, authorOrder)) == 2
  {
    var link := [OpenLink(cfg, b)];
    OpenLinkAngles(cfg, b);
    HeaderAngles(b);
    CustomBlockAngles(cfg);
    var words := ChangeWords(Join(authorOrder, ", "), IntToDecimal(sm.fileCount));
    var ps := Header(b) + words + link + CustomBlock(cfg);
    MarkupOnlyFromVerbatim(ps);
    VerbatimAnglesAppend(Header(b) + words + link, CustomBlock(cfg));
    VerbatimAnglesAppend(Header(b) + words, link);
    VerbatimAnglesAppend(Header(b), words);
    assert AllAppended(words);
    NoVerbatimPieces(words);
  }

  lemma StartedMessageLinks(h: seq<Run>, pos: nat, cfg: Config, timeSpan: int -> string)
    requires pos < |h|
    requires NoAngles(BuildUrl(cfg, h[pos])) && NoAngles(h[pos].durationText)
    requires forall n :: NoAngles(timeSpan(n))
    requires cfg.includeCustomMessage ==> NoAngles(cfg.customMessage)
    ensures Angles(StartedMessage(h, pos, cfg, false, timeSpan)) == 2
  {
    var b := h[pos];
    var link := [OpenLink(cfg, b)];
    OpenLinkAngles(cfg, b);
    CustomBlockAngles(cfg);
    var d := Duration(h, pos, timeSpan);
    assert NoAngles(d);
    NoAnglesCount(d);
    var pre := StatusPrefix(h, pos);
    var mid := [Verbatim(d)] + link;
    var ps := pre + mid + TestPieces(false, b) + CustomBlock(cfg);
    assert ps == StatusPrefix(h, pos) + [Verbatim(d), OpenLink(cfg, b)] + TestPieces(false, b) + CustomBlock(cfg);
    MarkupOnlyFromVerbatim(ps);
    VerbatimAnglesAppend(pre + mid + TestPieces(false, b), CustomBlock(cfg));
    VerbatimAnglesAppend(pre + mid, TestPieces(false, b));
    VerbatimAnglesAppend(pre, mid);
    VerbatimAnglesAppend([Verbatim(d)], link);
    StatusPrefixAngles(h, pos);
  }

  lemma OpenLinkAngles(cfg: Config, b: Run)
    requires NoAngles(BuildUrl(cfg, b))
    ensures VerbatimAngles([OpenLink(cfg, b)]) == 2
  {
    LinkAngles(BuildUrl(cfg, b), "Open");
    AnglesAppend(" (" + Link(BuildUrl(cfg, b), "Open"), ")");
    AnglesAppend(" (", Link(BuildUrl(cfg, b), "Open"));
    assert Angles(" (") == 0 && Angles(")") == 0;
  }

  lemma StatusPrefixAngles(h: seq<Run>, pos: nat)
    requires pos < |h|
    ensures VerbatimAngles(StatusPrefix(h, pos)) == 0
  {
    var b := h[pos];
    var tail := [Appended(StatusWord(h, pos)), Verbatim(" after ")];
    HeaderAngles(b);
    VerbatimAnglesAppend(Header(b), tail);
    assert Angles(" after ") == 0;
    assert VerbatimAngles(tail[1..]) == 0 + VerbatimAngles(tail[2..]);
  }
}

=== FILE: text.dfy ===
/** String helpers used by the message builders: joining with a separator and the
    decimal rendering Java uses when an `int` is appended to a string. */
module Text {

  /** True if `p` occurs in `s` at position `i`. */
  predicate OccursAt(s: string, i: nat, p: string) {
    i + |p| <= |s| && s[i..i + |p|] == p
  }

  /** `String.contains`: `p` occurs somewhere in `s`. */
  predicate Contains(s: string, p: string) {
    exists i :: 0 <= i <= |s| && OccursAt(s, i, p)
  }

  /** `s` begins with `p`. */
  predicate StartsWith(s: string, p: string) {
    |p| <= |s| && s[..|p|] == p
  }

  /** Concatenation of `parts` with `sep` between neighbours, as commons-lang
      `StringUtils.join` produces it. */
  function Join(parts: seq<string>, sep: string): string
  {
    if |parts| == 0 then ""
    else if |parts| == 1 then parts[0]
    else parts[0] + sep + Join(parts[1..], sep)
  }

  /** True if `order` lists every element of `s` exactly once: one admissible
      iteration order of a Java `HashSet` holding `s`. */
  predicate IsEnumeration(order: seq<string>, s: set<string>) {
    |order| == |s| && (set x | x in order) == s
  }

  predicate IsDigit(c: char) {
    '0' <= c <= '9'
  }

  function DigitChar(d: nat): (c: char)
    requires d < 10
    ensures IsDigit(c)
  {
    ('0' as int + d) as char
  }

  /** The value of one decimal digit character. */
  function DigitValue(c: char): nat {
    if IsDigit(c) then c as int - '0' as int else 0
  }

  /** The number a string of decimal digits denotes, most significant first. */
  function DecimalValue(s: string): nat
  {
    if |s| == 0 then 0 else 10 * DecimalValue(s[..|s| - 1]) + DigitValue(s[|s| - 1])
  }

  /** The form `Integer.toString` gives a non-negative value: at least one
      digit, only digits, and no leading zero unless the number is zero. */
  predicate IsCanonicalDecimal(s: string) {
    |s| >= 1 && (forall k :: 0 <= k < |s| ==> IsDigit(s[k])) && (|s| > 1 ==> s[0] != '0')
  }

  /** Decimal digits of `n`, most significant first, no leading zero. */
  function NatToDecimal(n: nat): (r: string)
    ensures IsCanonicalDecimal(r)
    ensures DecimalValue(r) == n
  {
    if n < 10 then [DigitChar(n)]
    else
      var high := NatToDecimal(n / 10);
      assert (high + [DigitChar(n % 10)])[..|high|] == high;
      high + [DigitChar(n % 10)]
  }

  /** `Integer.toString`: an optional minus sign, then the canonical digits of
      the magnitude, which denote it. */
  function IntToDecimal(i: int): (r: string)
    ensures i >= 0 ==> IsCanonicalDecimal(r) && DecimalValue(r) == i
    ensures i < 0 ==> |r| >= 2 && r[0] == '-' && IsCanonicalDecimal(r[1..]) && DecimalValue(r[1..]) == -i
  {
    if i < 0 then "-" + NatToDecimal(-i) else NatToDecimal(i)
  }
}
